=== FILE: README.md ===
# Quiz-chat backend: the pure core, in Dafny

This project models the parts of the quiz/chat backend that compute something, rather than
pass data between the database, the embedding service and the generative model:

- **Quiz shaping** (`utils/geminiClient.js`). The 60/30/10 split of a requested question count.
  Clean-up of the model's text: trim, then strip markdown fences. The parse chain: direct
  `JSON.parse`, then the greedy `{...}` match, then the demo quiz. Normalisation of the
  `mcqs`/`saqs`/`laqs` lists into one defaulted list, and its truncation to `count`.
- **The demo quiz** and its `slice`.
- **`generateAIResponse`**, whose answer is never empty.
- **Video recommendations**: parsing the model's search queries and shaping at most three
  entries.
- **Dashboard statistics** (`routes/dashboard.js`): the rounded average, the last five scores,
  the grade ladder and the strength/weakness labels.
- **The chat exchange** (`routes/chat.js`): creating a chat, and sending a message. Sending
  builds the context and citations from the retrieved chunks, appends the user and assistant
  messages, and derives the title on the first exchange.
- **The PDF access decision** of `/recommend-videos` (`routes/videos.js`).

Everything is a pure function over immutable datatypes. What the handlers get from outside is
passed in as plain inputs:

- the database reads: a `map` from ids to records;
- the clock: an `int`;
- the embedding service: a function from (question, scope, top-k) to chunks;
- the generative model: a `ModelReply` value, or a function from the prompt's inputs to one;
- `JSON.parse`: a `Parser`, a function from text to an optional `Json` value.

Modules follow the source: `QuizGeneration`, `QuizShape`, `DemoQuiz`, `AiAnswer`,
`ModelOutput` and `VideoRecommendations` for `utils/geminiClient.js`; `VideosRoute`,
`Dashboard`, `ChatModel` and `ChatRoute` for the routes and the chat schema. `Js`, `Decimal`,
`JsonValue` and `Wrappers` give the JavaScript behaviour the code relies on: `slice` with
negative bounds, `join`, `trim` and its exact white-space set, `${n}` rendering, truthiness,
and property reads.

Behaviour the proofs pin down that a reader might not expect:

- The count split does not always add up to the request. For a count below 3 every type
  still gets one question, so the prompt asks for 3 (`QuizGeneration.MixTotal`). The returned
  list is still cut to `count`.
- A negative `count` makes `slice(0, count)` drop questions from the end, so the demo quiz
  for `count = -3` has 7 questions (`DemoQuiz.GetDemoQuiz`).
- The catch branch of `getVideoRecommendations` returns `mockVideos`, which the file never
  defines. So every failure there becomes a rejection and then a 500 from the route
  (`VideoRecommendations.GetVideoRecommendations`, `VideosRoute.RecommendVideos`).
- Upload creates the PDF record without an `uploader`, and the PDF schema has no `isDefault`
  field. So an uploaded PDF is refused with 403 to everyone, its uploader included
  (`VideosRoute.UploadedPdfDeniedToAll`).
- The seed script passes `isDefault: true` for the three default PDFs, but the field is not in
  the schema and is dropped on save, and no uploader is set. So the seeded PDFs are refused
  with 403 to everyone as well (`VideosRoute.SeededPdfDeniedToAll`): no stored record can take
  the `isDefault` branch of the access test.
- The third video's duration reads "16:0": the seconds are not zero-padded
  (`VideoRecommendations.DurationLabels`).
- A reply split over two or more empty content parts is answered with the newline separators
  alone, not with the "not enough information" text (`AiAnswer.SeveralPartsAlwaysPassedOn`).
- A `null` entry among the content parts makes the `map` throw, so the student gets the
  "having trouble" text (`AiAnswer.NullPartGivesTrouble`).
- A reply that parses as JSON but holds none of `mcqs`, `saqs` and `laqs` (an array, a
  number, a string, or an object without those keys) gives an empty quiz, not the demo quiz:
  the parse succeeds and every list defaults to `[]` (`QuizGeneration.ParsedNonQuizGivesEmpty`).

## Model

| member | source | states |
|---|---|---|
| `QuizGeneration.QuestionMix` | utils/geminiClient.js:55-58 | each of the three counts is at least 1; from count 2 the MCQ count is floor(6c/10), from count 4 the SAQ count is floor(3c/10); there are never fewer MCQs than SAQs |
| `QuizGeneration.MixTotal` | utils/geminiClient.js:56-58 | the counts sum to the requested count if and only if it is at least 3; below 3 the split is exactly 1/1/1 |
| `Js.TrimEmptyIffBlank` | utils/geminiClient.js:51-53 | `text.trim()` is empty exactly when every character is ECMAScript white space |
| `ModelOutput.ResponseText` | utils/geminiClient.js:108-109 | `response.text()` yields text only for a reply whose `text` is a method that returns; every other reply shape throws |
| `ModelOutput.RemoveFence` | utils/geminiClient.js:112 | the result is never longer than the input; what the removal keeps and drops is stated by `ModelOutput.NoFenceAfterRemove`, `ModelOutput.RemoveFenceSkipsPlain` and `ModelOutput.RemoveFenceUnchanged` |
| `ModelOutput.StripFences` | utils/geminiClient.js:112 | the fence clean-up never lengthens the text and leaves no triple backtick anywhere in it |
| `ModelOutput.RemoveFenceSkipsPlain` | utils/geminiClient.js:112 | the removal passes over backtick-free text unchanged and carries on after it |
| `ModelOutput.StripJsonFence` | utils/geminiClient.js:112 | a reply of the form "```json", newline, payload, "```" is cleaned to exactly the payload when the payload holds no backtick |
| `ModelOutput.NoFenceAfterRemove` | utils/geminiClient.js:112 | a global removal of "```" (with one optional following newline) cannot glue the remaining backticks into a new fence |
| `ModelOutput.StripFencesUnchanged` | utils/geminiClient.js:112 | text containing no backtick passes the clean-up unchanged |
| `ModelOutput.GreedyObject` | utils/geminiClient.js:118-120 | a match exists if and only if some `{` precedes some `}`; the match runs from the first `{` to the last `}` |
| `ModelOutput.GreedyObjectFramed` | utils/geminiClient.js:118-120 | an object literal with `{`-free text before it and `}`-free text after it is exactly the greedy match |
| `QuizGeneration.RecoverJson` | utils/geminiClient.js:114-124 | a successful direct parse wins; when it fails and the greedy `{...}` match exists, the value is the parse of that match; there is no value when no `{` precedes a `}` and the direct parse fails |
| `QuizGeneration.FramedObjectRecovered` | utils/geminiClient.js:114-121 | when the direct parse fails, prose around an object literal (no `{` before it, no `}` after it) is ignored and the literal alone is parsed |
| `QuizGeneration.NormaliseItem` | utils/geminiClient.js:129-156 | throws exactly on a `null` item; the type comes from the list, never from the item; every usable field supplied is kept, every other field gets its default (`<type>_<i+1>`, "Untitled <TYPE>", the four placeholder options, answer 0, the fixed explanation or model-answer text); the result is always in normal form |
| `QuizGeneration.NormaliseToJson` | utils/geminiClient.js:129-156 | normalising the JSON a normalised question is sent as gives that question back (normalisation is a fixpoint on its output) |
| `QuizShape.DefaultIdsDistinct` | utils/geminiClient.js:131-151 | generated ids from different lists or different positions never coincide |
| `QuizGeneration.NormaliseGroup` | utils/geminiClient.js:129-138 | a list fails exactly when it holds a `null`; otherwise it yields one question per item, item k becoming question k |
| `QuizGeneration.GroupOf` | utils/geminiClient.js:129-149 | an absent or falsy list is empty, an array gives its items, and any other truthy value throws |
| `QuizGeneration.Normalise` | utils/geminiClient.js:126-156 | succeeds if and only if the reply is not `null` and each of `mcqs`, `saqs`, `laqs` is falsy or an array without a `null` item; on success the list is as long as the three source lists together, all normalised, with MCQs before SAQs before LAQs |
| `QuizGeneration.NormaliseOrder` | utils/geminiClient.js:127-156 | question k of each list sits at offset k of that list's block, and the blocks come in the order MCQ, SAQ, LAQ |
| `QuizShape.ConcatGroupsOrdered` | utils/geminiClient.js:127-156 | concatenating a block of MCQs, a block of SAQs and a block of LAQs gives a grouped, normalised list |
| `QuizShape.PrefixKeepsShape` | utils/geminiClient.js:159 | cutting the list to `count` keeps it normalised and grouped |
| `QuizGeneration.QuestionsFromReply` | utils/geminiClient.js:107-156 | a reply without a callable `text()` fails; otherwise it succeeds if and only if the trimmed, fence-stripped text recovers to a value the normalisation accepts, and the questions are that value's normalisation |
| `QuizGeneration.GenerateQuizQuestions` | utils/geminiClient.js:50-163 | whitespace-only text, and only that, raises the TypeError; otherwise the list is normalised and grouped; it is the demo quiz when the reply cannot be turned into questions, and otherwise the first min(count, n) of the n normalised questions (count default 10; all but the last -count for a negative count) |
| `QuizGeneration.Outcome` | utils/geminiClient.js:159-162 | once the model has replied, the result is the demo quiz when the `try` threw, and otherwise the leading min(count, n) of its questions (n + count, at least 0, for a negative count); either way normalised, grouped and at most a non-negative count long |
| `QuizGeneration.Truncate` | utils/geminiClient.js:159 | `slice(0, count)` gives a prefix of min(count, n) questions, or n + count (at least 0) for a negative count, still normalised and grouped |
| `QuizGeneration.FencedReplyGivesQuestions` | utils/geminiClient.js:107-159 | a reply fenced as "```json" ... "```" around a backtick-free payload that parses to an accepted value yields the leading min(count, n) of that value's normalised questions |
| `QuizGeneration.UnparseableReplyGivesDemo` | utils/geminiClient.js:107-162 | text from which no JSON value can be recovered, whole or between its outermost braces, yields exactly the demo quiz |
| `QuizGeneration.ParsedNonQuizGivesEmpty` | utils/geminiClient.js:115-159 | text that parses to a non-null value with none of the three lists yields an empty list of questions, not the demo quiz |
| `QuizGeneration.NoListsNormaliseEmpty` | utils/geminiClient.js:126-156 | a non-null value without any of the three lists normalises to no questions |
| `QuizGeneration.DemoQuizShape` | utils/geminiClient.js:160-162 | the fallback quiz is normalised and grouped like a generated one |
| `DemoQuiz.GetDemoQuiz` | utils/geminiClient.js:167-297 | the demo quiz is a prefix of the ten demo questions: min(count, 10) of them for count ≥ 0, and 10 + count (at least 0) for a negative count; each is a normalised MCQ with four options and an answer index in 0..3 |
| `DemoQuiz.DemoQuizExtends` | utils/geminiClient.js:296 | a larger count only extends the demo quiz, and a count of 10 or more gives all ten questions |
| `DemoQuiz.DemoQuestions` | utils/geminiClient.js:168-294 | the ten demo questions, string for string |
| `DemoQuiz.DemoQuestionsWellFormed` | utils/geminiClient.js:168-294 | the ten demo questions are normalised, answerable MCQs with pairwise distinct ids |
| `AiAnswer.ExtractedText` | utils/geminiClient.js:28-40 | no text exactly when the call or `text()` threw or a content entry is `null`; a callable `text()` that returns gives exactly what it returned; a `text` string or `output_text` string is taken as it is; a single content part is its own text, and several give at least one character per separator (the join itself is stated by `AiAnswer.SeveralPartsAlwaysPassedOn`); any other shape gives "" |
| `AiAnswer.GenerateAIResponse` | utils/geminiClient.js:25-47 | the answer is never empty; it is the "having trouble" text when the call or `text()` threw; it is the "not enough information" text when the extracted text is empty; otherwise it is the extracted text |
| `AiAnswer.SeveralPartsAlwaysPassedOn` | utils/geminiClient.js:37-43 | two or more content parts, none `null`, are always answered with their newline-joined text, even when all are empty |
| `AiAnswer.NullPartGivesTrouble` | utils/geminiClient.js:37-46 | a `null` content entry makes the `map` throw, and the answer is the "having trouble" text |
| `ModelOutput.FirstBracketed` | utils/geminiClient.js:323-325 | a match exists if and only if some `[` precedes some `]`; the capture lies between the first `[` and the first `]` after it |
| `VideoRecommendations.RecoverQueries` | utils/geminiClient.js:318-333 | a successful direct parse wins; otherwise, when some `[` precedes some `]`, the value is the parse of the text between the first `[` and the first `]` after it, re-wrapped in brackets; with no such pair the three fallback queries are used |
| `VideoRecommendations.ShapeVideos` | utils/geminiClient.js:336-340 | there are min(3, number of queries) entries; entry i has title = query i and the duration of minute 10+3i, second (30+15i) mod 60 |
| `VideoRecommendations.DurationLabels` | utils/geminiClient.js:338 | the three durations read "10:30", "13:45" and "16:0" |
| `VideoRecommendations.GetVideoRecommendations` | utils/geminiClient.js:313-344 | never more than 3 videos; a reply without a callable `text()` rejects; when the cleaned reply recovers to an array of queries, the result is exactly those queries shaped into videos, and otherwise the function rejects |
| `VideoRecommendations.FallbackVideos` | utils/geminiClient.js:318-333 | a reply with no JSON and no bracketed text yields exactly the three fallback topics |
| `VideoRecommendations.NonArrayRejects` | utils/geminiClient.js:336-343 | a reply that parses to anything but an array makes the function reject |
| `VideosRoute.Decide` | routes/videos.js:12-20 | 400 exactly for a falsy id; 404 exactly for an unknown id; for a known PDF, access is granted if and only if it is default or uploaded by the requester |
| `VideosRoute.MissingIdBeforeLookup` | routes/videos.js:12-16 | a missing id is refused the same way whatever the store holds |
| `VideosRoute.OrphanPdfDeniedToAll` | routes/videos.js:18-20 | a non-default PDF with no uploader is denied to every requester |
| `VideosRoute.UploadedPdf` | routes/upload.js:25 | the record an upload creates has no uploader, reads as not default, and keeps the original name |
| `VideosRoute.UploadedPdfDeniedToAll` | routes/videos.js:18-20 | a PDF stored by the upload route is denied to everyone, its uploader included |
| `VideosRoute.SeededPdf` | scripts/seedDefaultPDFs.js:111 | the record the seed script stores keeps names and page count but has no uploader and reads as not default |
| `VideosRoute.SeededPdfDeniedToAll` | routes/videos.js:18-20 | a PDF stored by the seed script is denied to every requester |
| `VideosRoute.VideoContext` | routes/videos.js:23 | the context is "PDF Title: " and the original name, then a line "Pages: " whose digits read back as the stored page count, or "undefined" when there is none |
| `VideosRoute.RecommendVideos` | routes/videos.js:8-31 | status 400, 404 and 403 arise exactly under the conditions above, in that order; status 500 exactly when access is granted and the recommendation call rejects; otherwise the videos are the call's result for the PDF's context, at most 3, and `basedOn` is its original name |
| `VideosRoute.DefaultPdfSameForAll` | routes/videos.js:18-27 | for a default PDF every requester gets the same response, either 200 or 500 |
| `VideosRoute.GrantedFallbackRecommends` | routes/videos.js:22-26 | an accessible PDF whose reply names no queries gets the three fallback topics, based on its original name |
| `Dashboard.RoundedMean` | routes/dashboard.js:12-14 | the result is the integer nearest the mean, with halves rounded up (as `Math.round`) |
| `Dashboard.OverallScore` | routes/dashboard.js:11-14 | 0 with no attempts; otherwise the nearest integer to the mean score |
| `Dashboard.SumWithin` | routes/dashboard.js:13 | if every score lies in [lo, hi], the total lies in [n·lo, n·hi] |
| `Dashboard.OverallScoreWithin` | routes/dashboard.js:12-14 | the overall score lies within any bounds all scores lie within: in 0..100 when the scores do, and between the lowest and highest score |
| `Dashboard.RecentScores` | routes/dashboard.js:17-19 | the last min(5, n) scores, in stored order |
| `Dashboard.GradeFor` | routes/dashboard.js:35 | A+ exactly from 90, A on [80, 90), B on [70, 80), C on [60, 70), D below 60 |
| `Dashboard.GradeMonotone` | routes/dashboard.js:35 | a higher average never earns a lower grade |
| `Dashboard.DashboardStats` | routes/dashboard.js:10-36 | `quizzesCompleted` is the number of attempts, the chat count is passed through, both label lists follow the overall score, and the grade string sent is "A+" exactly from 90, "A" on [80, 90), "B" on [70, 80), "C" on [60, 70) and "D" below 60 |
| `Dashboard.LabelInjective` | routes/dashboard.js:35 | different grades are sent as different strings |
| `Dashboard.LabelsFollowGrade` | routes/dashboard.js:22-35 | the "high" strengths and weaknesses appear exactly when the grade is A+ or A |
| `ChatRoute.NewChat` | routes/chat.js:40-46 | a new chat belongs to the caller and has no messages; its title is the given one, or "New Chat" when that is falsy; its PDF link is the given one, or none |
| `ChatRoute.ContextStructure` | routes/chat.js:74-77 | no chunks give the empty context; one chunk gives `Page <page or N/A>: <text>`; the context of two runs of chunks is theirs joined by a blank line |
| `ChatRoute.Context` | routes/chat.js:74-77 | the context is empty exactly when there are no chunks, and otherwise begins with the first chunk's `Page <page or N/A>: <text>` |
| `ChatRoute.CiteChunk` | routes/chat.js:81-84 | the snippet is the prefix of the chunk text of length min(200, its length); a falsy page, 0 included, becomes null |
| `ChatRoute.Citations` | routes/chat.js:81-84 | one citation per chunk, in chunk order |
| `ChatRoute.DerivedTitle` | routes/chat.js:95-97 | at most 53 characters; a question of up to 50 characters is the title as it is; a longer one becomes its first 50 characters followed by "..." |
| `ChatRoute.Exchange` | routes/chat.js:66-97 | owner and PDF link are kept; exactly a user message then an assistant message are appended after the unchanged prior ones; the title is derived from the question exactly when the chat had no messages |
| `ChatRoute.SendMessage` | routes/chat.js:55-110 | a falsy question gives 400 with the store unchanged, before any lookup; a chat that is missing or not the caller's gives 404, store unchanged; otherwise the exchange appends exactly a user message then an assistant message after the unchanged prior ones. The answer is non-empty, the citations are those of the retrieved chunks, and the title changes only when the chat had no messages |
| `ChatRoute.SendPreservesWellFormed` | routes/chat.js:66-92 | a transcript of alternating user and assistant messages, with non-empty contents and citations only on assistant messages, stays so after a send |
| `ChatRoute.TitleFixedAfterFirstExchange` | routes/chat.js:94-97 | once a chat holds messages, later sends never change its title |
| `ChatRoute.SendTouchesOneChat` | routes/chat.js:60-100 | a send changes no chat other than the one addressed |

## Left out

- Express routing, Mongoose queries, persistence (`save`) and their failures. These become
  plain inputs (maps of records, a chat count) and outputs. The 500 responses that only a
  database error or a malformed ObjectId (CastError) can cause are not modelled.
- The prompt texts and the Gemini SDK call. The model's reply is an input (`ModelReply`), or a
  function of the context handed to it. `JSON.parse` is a `Parser` oracle.
- The question-count split only feeds the prompt, so in the model it does not influence which
  questions come back. It is stated and proved on its own.
- `Math.floor(count * 0.6)` and `Math.floor(count * 0.3)` are modelled as the exact
  `floor(6c/10)` and `floor(3c/10)`. Binary floating point is not followed, and neither is
  floating-point division in `Math.round(sum / n)`. JSON numbers are exact reals, and
  scores and counts are integers.
- The `views` string of a video (`toFixed`) is floating-point formatting and is not modelled.
  The undefined `mockVideos` is modelled only through its effect: the function rejects.
- String lengths count Unicode scalar values, not UTF-16 code units. So `slice(0, 50)` and
  `slice(0, 200)` differ from the source on text outside the Basic Multilingual Plane.
- Request bodies of the wrong type are not modelled: a non-string question, title or quiz
  text. Neither are chunks without `metadata` or `text`, nor a `metadata.page` that is not
  an integer.
- AiAnswer.ExtractedText: a truthy `c.text` that is not a string (a number, an object) is not
  modelled; `join` would render it with `String(...)`. Content parts are strings or `null`.
- The two `new Date()` readings of one send are one clock input; `createdAt` and `updatedAt`
  are left out.
- The chat history, get and delete routes are plain ownership-filtered database reads and
  writes, with nothing to compute.
- `routes/auth.js` (bcrypt and jsonwebtoken), `routes/upload.js` beyond the record it creates,
  `routes/pdfs.js`, `scripts/seedDefaultPDFs.js` beyond the records it stores, `utils/embedderClient.js` and `server.js`
  are I/O or framework glue.
- `routes/quiz.js` is a stub: it returns a fixed quiz and a fixed score of 80. No quiz-scoring
  algorithm exists in the code, so none is modelled.

=== FILE: ai_answer.dfy ===
/** `generateAIResponse` (utils/geminiClient.js): the answer to a student's
    question is never empty. */
module AiAnswer {
  import opened Wrappers
  import opened Js
  import opened ModelOutput

  const NotEnoughInformation := "I don't have enough information to answer that."
  const HavingTrouble := "I am having trouble processing your question right now."

  /** The text the duck-typing chain pulls out of a reply; `None` when the
      call, or the `text()` method, threw. */
  function ExtractedText(reply: ModelReply): (r: Option<string>)
    ensures r.None? <==> reply.Rejected? || reply == TextMethod(None) || (reply.Contents? && None in reply.parts)
    ensures reply.TextMethod? ==> r == reply.returned
    ensures reply.TextField? || reply.OutputText? ==> r == Some(reply.text)
    ensures reply.Contents? && |reply.parts| == 1 && reply.parts[0].Some? ==> r == reply.parts[0]
    ensures reply.Contents? && None !in reply.parts && |reply.parts| >= 2 ==> |r.value| >= |reply.parts| - 1
    ensures reply.Unrecognised? || reply == Contents([]) ==> r == Some("")
  {
    match reply
    case Rejected => None
    case TextMethod(returned) => returned
    case TextField(text) => Some(text)
    case OutputText(text) => Some(text)
    case Contents(parts) =>
      if None in parts then None
      else
        var texts := PartTexts(parts);
        JoinLength(texts, "\n");
        Some(Join(texts, "\n"))
    case Unrecognised => Some("")
  }

  /** The texts of content parts none of which is `null`. */
  function PartTexts(parts: seq<Option<string>>): (texts: seq<string>)
    requires None !in parts
    ensures |texts| == |parts|
    ensures forall k :: 0 <= k < |parts| ==> parts[k] == Some(texts[k])
  {
    assert forall k :: 0 <= k < |parts| ==> parts[k].Some? by {
      forall k | 0 <= k < |parts|
        ensures parts[k].Some?
      {
        assert parts[k] in parts;
      }
    }
    seq(|parts|, k requires 0 <= k < |parts| => parts[k].value)
  }

  /** `generateAIResponse(question, context)` given the model's reply to the
      prompt built from them. */
  function GenerateAIResponse(reply: ModelReply): (answer: string)
    ensures |answer| > 0
    ensures answer == HavingTrouble <==> ExtractedText(reply).None? || ExtractedText(reply) == Some(HavingTrouble)
    ensures ExtractedText(reply) == Some("") ==> answer == NotEnoughInformation
    ensures ExtractedText(reply).Some? && ExtractedText(reply).value != "" ==> answer == ExtractedText(reply).value
  {
    match ExtractedText(reply)
    case None => HavingTrouble
    case Some(text) => if text == "" then NotEnoughInformation else text
  }

  /** A reply spread over two or more content parts is always passed on as
      their newline-joined text, even when every part is empty: the
      separators alone make it truthy. */
  lemma {:induction false} SeveralPartsAlwaysPassedOn(parts: seq<Option<string>>)
    requires |parts| >= 2 && None !in parts
    ensures GenerateAIResponse(Contents(parts)) == Join(PartTexts(parts), "\n")
  {
    var texts := PartTexts(parts);
    JoinConcat([texts[0]], texts[1..], "\n");
    assert [texts[0]] + texts[1..] == texts;
    assert |Join(texts, "\n")| >= 1;
  }

  /** A `null` entry anywhere in `response.contents` makes the `map` throw,
      and the question is answered with the "having trouble" text. */
  lemma NullPartGivesTrouble(parts: seq<Option<string>>)
    requires None in parts
    ensures GenerateAIResponse(Contents(parts)) == HavingTrouble
  {
  }
}

=== FILE: chat_model.dfy ===
/** The chat document of models/Chat.js and the retrieval chunk the
    embedding service returns. */
module ChatModel {
  import opened Wrappers
  import opened Ids

  datatype Role = User | Assistant

  /** `page` is `null` when the chunk had no truthy page. */
  datatype Citation = Citation(page: Option<int>, snippet: string)

  /** `timestamp` is the clock reading supplied by the caller. */
  datatype Message = Message(role: Role, content: string, citations: seq<Citation>, timestamp: int)

  datatype Chat = Chat(owner: UserId, title: string, messages: seq<Message>, pdfId: Option<PdfId>)

  /** A retrieved chunk: its text and `metadata.page` (`None` when absent). */
  datatype Chunk = Chunk(text: string, page: Option<int>)

  /** The transcript shape the send-message handler maintains: exchanges of
      a user message followed by an assistant message, every content
      non-empty (the schema marks it required), and citations on assistant
      messages only. */
  predicate WellFormed(msgs: seq<Message>) {
    && |msgs| % 2 == 0
    && forall k :: 0 <= k < |msgs| ==>
         && |msgs[k].content| > 0
         && (msgs[k].role == User <==> k % 2 == 0)
         && (msgs[k].role == User ==> msgs[k].citations == [])
  }
}

=== FILE: chat_route.dfy ===
/** Chat creation and the send-message exchange of routes/chat.js. */
module ChatRoute {
  import opened Wrappers
  import opened Js
  import opened Decimal
  import opened ModelOutput
  import opened AiAnswer
  import opened Ids
  import opened ChatModel

  type ChatId = string

  const DefaultTitle := "New Chat"
  const TopK := 4
  const SnippetLength := 200
  const TitleLength := 50

  /** POST `/new`: an empty chat, titled "New Chat" and unlinked unless the
      body says otherwise. */
  function NewChat(owner: UserId, title: Option<string>, pdfId: Option<PdfId>): (c: Chat)
    ensures c.owner == owner && c.messages == [] && WellFormed(c.messages)
    ensures Present(title) ==> c.title == title.value
    ensures !Present(title) ==> c.title == DefaultTitle
    ensures Present(pdfId) ==> c.pdfId == pdfId
    ensures !Present(pdfId) ==> c.pdfId.None?
  {
    Chat(owner,
         if Present(title) then title.value else DefaultTitle,
         [],
         if Present(pdfId) then pdfId else None)
  }

  /** A page of 0, or none, is falsy. */
  predicate HasPage(page: Option<int>) {
    page.Some? && page.value != 0
  }

  /** `${c.metadata.page || 'N/A'}`. */
  function PageLabel(page: Option<int>): string {
    if HasPage(page) then FromInt(page.value) else "N/A"
  }

  /** One chunk in the context: `Page <page>: <text>`. */
  function RenderChunk(c: Chunk): string {
    "Page " + PageLabel(c.page) + ": " + c.text
  }

  /** The context handed to the model: the rendered chunks separated by a
      blank line. */
  function Context(chunks: seq<Chunk>): (ctx: string)
    ensures ctx == "" <==> |chunks| == 0
    ensures |chunks| > 0 ==> RenderChunk(chunks[0]) <= ctx
  {
    var parts := seq(|chunks|, k requires 0 <= k < |chunks| => RenderChunk(chunks[k]));
    assert |parts| > 0 ==> parts[0] <= Join(parts, "\n\n") && |parts[0]| > 0;
    Join(parts, "\n\n")
  }

  /** No chunks give an empty context; one chunk gives its rendering; and
      the context of two runs of chunks is theirs joined by a blank line. */
  lemma ContextStructure(a: seq<Chunk>, b: seq<Chunk>)
    ensures Context([]) == ""
    ensures |a| == 1 ==> Context(a) == RenderChunk(a[0])
    ensures |a| > 0 && |b| > 0 ==> Context(a + b) == Context(a) + "\n\n" + Context(b)
  {
    if |a| > 0 && |b| > 0 {
      var ra := seq(|a|, k requires 0 <= k < |a| => RenderChunk(a[k]));
      var rb := seq(|b|, k requires 0 <= k < |b| => RenderChunk(b[k]));
      var rab := seq(|a + b|, k requires 0 <= k < |a + b| => RenderChunk((a + b)[k]));
      assert rab == ra + rb;
      JoinConcat(ra, rb, "\n\n");
    }
  }

  /** The citation for one chunk. */
  function CiteChunk(c: Chunk): (cite: Citation)
    ensures |cite.snippet| == Min(SnippetLength, |c.text|) && cite.snippet <= c.text
    ensures HasPage(c.page) ==> cite.page == c.page
    ensures !HasPage(c.page) ==> cite.page.None?
  {
    Citation(if HasPage(c.page) then c.page else None, SliceTo(c.text, SnippetLength))
  }

  /** One citation per chunk, in chunk order. */
  function Citations(chunks: seq<Chunk>): (cites: seq<Citation>)
    ensures |cites| == |chunks|
    ensures forall k :: 0 <= k < |chunks| ==> cites[k] == CiteChunk(chunks[k])
  {
    seq(|chunks|, k requires 0 <= k < |chunks| => CiteChunk(chunks[k]))
  }

  /** The title derived from the first question: its first 50 characters,
      followed by "..." exactly when something was cut. */
  function DerivedTitle(question: string): (t: string)
    ensures |t| <= TitleLength + 3
    ensures |question| <= TitleLength ==> t == question
    ensures |question| > TitleLength ==> |t| == TitleLength + 3 && t[..TitleLength] == question[..TitleLength] && t[TitleLength..] == "..."
  {
    SliceTo(question, TitleLength) + (if |question| > TitleLength then "..." else "")
  }

  /** The embedder query scope: the chat's PDF, or every PDF. */
  function Scope(chat: Chat): string {
    if Present(chat.pdfId) then chat.pdfId.value else "all"
  }

  /** `Chat.findOne({ _id: chatId, user: requester })` finds a chat. */
  predicate Owns(chats: map<ChatId, Chat>, chatId: ChatId, requester: UserId) {
    chatId in chats && chats[chatId].owner == requester
  }

  datatype SendResponse =
    | NoQuestion      // 400 "no question"
    | ChatNotFound    // 404 "Chat not found"
    | Answered(answer: string, citations: seq<Citation>, chat: Chat)

  datatype SendResult = SendResult(response: SendResponse, chats: map<ChatId, Chat>)

  /** The chat after one exchange: the user message and the assistant
      message appended, and the title derived when these are the first two
      messages. */
  function Exchange(chat: Chat, question: string, answer: string, cites: seq<Citation>, now: int): (c: Chat)
    ensures c.owner == chat.owner && c.pdfId == chat.pdfId
    ensures |c.messages| == |chat.messages| + 2 && c.messages[..|chat.messages|] == chat.messages
    ensures c.messages[|chat.messages|] == Message(User, question, [], now)
    ensures c.messages[|chat.messages| + 1] == Message(Assistant, answer, cites, now)
    ensures |chat.messages| == 0 ==> c.title == DerivedTitle(question)
    ensures |chat.messages| > 0 ==> c.title == chat.title
  {
    var msgs := chat.messages + [Message(User, question, [], now), Message(Assistant, answer, cites, now)];
    chat.(messages := msgs, title := if |msgs| == 2 then DerivedTitle(question) else chat.title)
  }

  /** POST `/:chatId/message`, given the chat store, the clock, the
      embedding service (`retrieve(question, scope, topK)`) and the model's
      reply to a question and context (`ask`). Neither service call can
      fail here: the embedder client returns [] on error and
      `generateAIResponse` catches everything. */
  function SendMessage(chats: map<ChatId, Chat>, chatId: ChatId, requester: UserId,
                       question: Option<string>, now: int,
                       retrieve: (string, string, nat) -> seq<Chunk>,
                       ask: (string, string) -> ModelReply): (r: SendResult)
    ensures !Present(question) ==> r == SendResult(NoQuestion, chats)
    ensures Present(question) && !Owns(chats, chatId, requester) ==> r == SendResult(ChatNotFound, chats)
    ensures r.response.Answered? <==> Present(question) && Owns(chats, chatId, requester)
    ensures r.response.Answered? ==>
      var before := chats[chatId];
      var after := r.response.chat;
      var n := |before.messages|;
      var chunks := retrieve(question.value, Scope(before), TopK);
      && r.chats == chats[chatId := after]
      && after.owner == before.owner && after.pdfId == before.pdfId
      && |after.messages| == n + 2
      && after.messages[..n] == before.messages
      && after.messages[n] == Message(User, question.value, [], now)
      && after.messages[n + 1] == Message(Assistant, r.response.answer, r.response.citations, now)
      && |r.response.answer| > 0
      && r.response.answer == GenerateAIResponse(ask(question.value, Context(chunks)))
      && r.response.citations == Citations(chunks)
      && (n == 0 ==> after.title == DerivedTitle(question.value))
      && (n != 0 ==> after.title == before.title)
  {
    if !Present(question) then SendResult(NoQuestion, chats)
    else if !Owns(chats, chatId, requester) then SendResult(ChatNotFound, chats)
    else
      var chat := chats[chatId];
      var q := question.value;
      var chunks := retrieve(q, Scope(chat), TopK);
      var answer := GenerateAIResponse(ask(q, Context(chunks)));
      var cites := Citations(chunks);
      var after := Exchange(chat, q, answer, cites, now);
      assert after.messages[..|chat.messages|] == chat.messages;
      SendResult(Answered(answer, cites, after), chats[chatId := after])
  }

  /** Sending a message keeps a well-formed transcript well-formed. */
  lemma SendPreservesWellFormed(chats: map<ChatId, Chat>, chatId: ChatId, requester: UserId,
                                question: Option<string>, now: int,
                                retrieve: (string, string, nat) -> seq<Chunk>,
                                ask: (string, string) -> ModelReply)
    requires chatId in chats && WellFormed(chats[chatId].messages)
    ensures var r := SendMessage(chats, chatId, requester, question, now, retrieve, ask);
            chatId in r.chats && WellFormed(r.chats[chatId].messages)
  {
    var r := SendMessage(chats, chatId, requester, question, now, retrieve, ask);
    if r.response.Answered? {
      var before := chats[chatId].messages;
      var after := r.chats[chatId].messages;
      var n := |before|;
      forall k | 0 <= k < |after|
        ensures |after[k].content| > 0
        ensures after[k].role == User <==> k % 2 == 0
        ensures after[k].role == User ==> after[k].citations == []
      {
        if k < n {
          assert after[k] == after[..n][k] == before[k];
        }
      }
    }
  }

  /** The title is derived once: a chat that already holds an exchange
      keeps its title through every later one. */
  lemma TitleFixedAfterFirstExchange(chats: map<ChatId, Chat>, chatId: ChatId, requester: UserId,
                                     question: Option<string>, now: int,
                                     retrieve: (string, string, nat) -> seq<Chunk>,
                                     ask: (string, string) -> ModelReply)
    requires chatId in chats && |chats[chatId].messages| > 0
    ensures var r := SendMessage(chats, chatId, requester, question, now, retrieve, ask);
            chatId in r.chats && r.chats[chatId].title == chats[chatId].title
  {
  }

  /** Other chats are untouched by a send. */
  lemma SendTouchesOneChat(chats: map<ChatId, Chat>, chatId: ChatId, requester: UserId,
                           question: Option<string>, now: int,
                           retrieve: (string, string, nat) -> seq<Chunk>,
                           ask: (string, string) -> ModelReply, other: ChatId)
    requires other != chatId
    ensures var r := SendMessage(chats, chatId, requester, question, now, retrieve, ask);
            (other in r.chats <==> other in chats) && (other in chats ==> r.chats[other] == chats[other])
  {
  }
}

=== FILE: dashboard.dfy ===
/** GET `/` of routes/dashboard.js: statistics over a user's quiz attempts. */
module Dashboard {
  import opened Wrappers
  import opened Js

  /** A stored quiz attempt; only the score is read here. Scores are
      integers (routes/quiz.js stores a fixed 80). */
  datatype QuizAttempt = QuizAttempt(pdf: Option<string>, score: int)

  datatype Grade = APlus | A | B | C | D {

    /** Higher is better. */
    function Rank(): nat {
      match this
      case D => 0
      case C => 1
      case B => 2
      case A => 3
      case APlus => 4
    }

    /** The grade as sent in the response. */
    function Label(): (s: string)
      ensures |s| >= 1 && (s[0] == 'A' <==> Rank() >= 3)
      ensures s == "A+" <==> this == APlus
    {
      match this
      case APlus => "A+"
      case A => "A"
      case B => "B"
      case C => "C"
      case D => "D"
    }
  }

  datatype Stats = Stats(
    overallScore: int,
    quizzesCompleted: nat,
    totalChats: nat,
    recentScores: seq<int>,
    strengths: seq<string>,
    weaknesses: seq<string>,
    grade: Grade)

  /** The `reduce` over scores. */
  function Sum(attempts: seq<QuizAttempt>): int {
    if |attempts| == 0 then 0 else Sum(attempts[..|attempts| - 1]) + attempts[|attempts| - 1].score
  }

  /** `Math.round(sum / n)`: the integer nearest the mean, halves rounded
      upward. */
  function RoundedMean(sum: int, n: nat): (r: int)
    requires n > 0
    ensures -(n as int) <= 2 * sum - 2 * n * r < n
  {
    var r := (2 * sum + n) / (2 * n);
    assert 2 * n * r <= 2 * sum + n < 2 * n * r + 2 * n;
    r
  }

  /** The overall score: the rounded mean of all attempts, 0 when there are
      none. */
  function OverallScore(attempts: seq<QuizAttempt>): (avg: int)
    ensures |attempts| == 0 ==> avg == 0
    ensures |attempts| > 0 ==> -(|attempts| as int) <= 2 * Sum(attempts) - 2 * |attempts| * avg < |attempts|
  {
    if |attempts| > 0 then RoundedMean(Sum(attempts), |attempts|) else 0
  }

  predicate ScoresWithin(attempts: seq<QuizAttempt>, lo: int, hi: int) {
    forall k :: 0 <= k < |attempts| ==> lo <= attempts[k].score <= hi
  }

  lemma {:induction false} SumWithin(attempts: seq<QuizAttempt>, lo: int, hi: int)
    requires ScoresWithin(attempts, lo, hi)
    ensures |attempts| * lo <= Sum(attempts) <= |attempts| * hi
  {
    if |attempts| > 0 {
      var init := attempts[..|attempts| - 1];
      assert ScoresWithin(init, lo, hi) by {
        assert forall k :: 0 <= k < |init| ==> init[k] == attempts[k];
      }
      SumWithin(init, lo, hi);
      assert |attempts| * lo == |init| * lo + lo;
      assert |attempts| * hi == |init| * hi + hi;
    }
  }

  /** The overall score lies within any bounds all scores lie within: in
      0..100 when the scores are, and between the lowest and highest
      score. */
  lemma OverallScoreWithin(attempts: seq<QuizAttempt>, lo: int, hi: int)
    requires |attempts| > 0 && ScoresWithin(attempts, lo, hi)
    ensures lo <= OverallScore(attempts) <= hi
  {
    var n := |attempts|;
    var s := Sum(attempts);
    var r := OverallScore(attempts);
    SumWithin(attempts, lo, hi);
    NearestNotAbove(n, s, r, hi);
    NearestNotBelow(n, s, r, lo);
  }

  /** A rounded mean does not exceed a bound the total respects. */
  lemma NearestNotAbove(n: int, s: int, r: int, hi: int)
    requires n > 0 && 2 * s - 2 * n * r >= -n && s <= n * hi
    ensures r <= hi
  {
    var e := 2 * (hi - r) + 1;
    assert n * e == 2 * (n * hi) - 2 * (n * r) + n;
    NonNegativeFactor(n, e);
  }

  /** A rounded mean does not fall under a bound the total respects. */
  lemma NearestNotBelow(n: int, s: int, r: int, lo: int)
    requires n > 0 && 2 * s - 2 * n * r < n && n * lo <= s
    ensures lo <= r
  {
    var e := 2 * (r - lo) + 1;
    assert n * e == 2 * (n * r) - 2 * (n * lo) + n;
    NonNegativeFactor(n, e - 1);
  }

  lemma NonNegativeFactor(n: int, e: int)
    requires n > 0 && n * e >= 0
    ensures e >= 0
  {
  }

  /** `quizAttempts.slice(-5).map(q => q.score)`: the last five scores (all
      of them when fewer), in stored order. */
  function RecentScores(attempts: seq<QuizAttempt>): (r: seq<int>)
    ensures |r| == Min(5, |attempts|)
    ensures forall k :: 0 <= k < |r| ==> r[k] == attempts[|attempts| - |r| + k].score
  {
    var last := SliceFrom(attempts, -5);
    seq(|last|, k requires 0 <= k < |last| => last[k].score)
  }

  /** The grade ladder: 90, 80, 70 and 60 are the lowest averages earning
      A+, A, B and C. */
  function GradeFor(avg: int): (g: Grade)
    ensures g == APlus <==> avg >= 90
    ensures g == A <==> 80 <= avg < 90
    ensures g == B <==> 70 <= avg < 80
    ensures g == C <==> 60 <= avg < 70
    ensures g == D <==> avg < 60
  {
    if avg >= 90 then APlus else if avg >= 80 then A else if avg >= 70 then B else if avg >= 60 then C else D
  }

  /** A higher average never earns a lower grade. */
  lemma GradeMonotone(a: int, b: int)
    requires a <= b
    ensures GradeFor(a).Rank() <= GradeFor(b).Rank()
  {
  }

  /** Different grades are sent as different strings. */
  lemma LabelInjective(g: Grade, h: Grade)
    ensures g.Label() == h.Label() <==> g == h
  {
  }

  const HighStrengths := ["Problem Solving", "Conceptual Understanding"]
  const LowStrengths := ["Effort", "Dedication"]
  const HighWeaknesses := ["Advanced Topics"]
  const LowWeaknesses := ["Practice More", "Review Basics"]

  /** The dashboard for a user's attempts (in stored order) and chat
      count. */
  function DashboardStats(attempts: seq<QuizAttempt>, totalChats: nat): (st: Stats)
    ensures st.quizzesCompleted == |attempts| && st.totalChats == totalChats
    ensures st.overallScore == OverallScore(attempts)
    ensures st.recentScores == RecentScores(attempts)
    ensures st.grade == GradeFor(st.overallScore)
    ensures st.strengths == (if st.overallScore >= 80 then HighStrengths else LowStrengths)
    ensures st.weaknesses == (if st.overallScore >= 80 then HighWeaknesses else LowWeaknesses)
    ensures st.grade.Label() == "A+" <==> st.overallScore >= 90
    ensures st.grade.Label() == "A" <==> 80 <= st.overallScore < 90
    ensures st.grade.Label() == "B" <==> 70 <= st.overallScore < 80
    ensures st.grade.Label() == "C" <==> 60 <= st.overallScore < 70
    ensures st.grade.Label() == "D" <==> st.overallScore < 60
  {
    var avg := OverallScore(attempts);
    Stats(avg, |attempts|, totalChats, RecentScores(attempts),
          if avg >= 80 then HighStrengths else LowStrengths,
          if avg < 80 then LowWeaknesses else HighWeaknesses,
          GradeFor(avg))
  }

  /** The "high" strengths and weaknesses appear exactly when the grade is
      A+ or A. */
  lemma LabelsFollowGrade(attempts: seq<QuizAttempt>, totalChats: nat)
    ensures var st := DashboardStats(attempts, totalChats);
            (st.strengths == HighStrengths <==> st.grade in {APlus, A})
            && (st.weaknesses == HighWeaknesses <==> st.grade in {APlus, A})
  {
  }
}

=== FILE: decimal.dfy ===
/** Decimal rendering of integers, as a template literal `${n}` prints them,
    and its inverse. */
module Decimal {

  predicate IsDigit(c: char) { '0' <= c <= '9' }

  predicate AllDigits(s: string) {
    forall k :: 0 <= k < |s| ==> IsDigit(s[k])
  }

  function DigitChar(d: nat): (c: char)
    requires d < 10
    ensures IsDigit(c) && c as int - '0' as int == d
  {
    (d + '0' as int) as char
  }

  /** The shortest decimal numeral of `n`. */
  function FromNat(n: nat): (s: string)
    ensures |s| >= 1 && AllDigits(s)
    decreases n
  {
    if n < 10 then [DigitChar(n)] else FromNat(n / 10) + [DigitChar(n % 10)]
  }

  /** `${i}` for an integer `i`. */
  function FromInt(i: int): (s: string)
    ensures |s| >= 1
    ensures i >= 0 ==> AllDigits(s)
    ensures i < 0 ==> s[0] == '-' && AllDigits(s[1..])
  {
    if i < 0 then "-" + FromNat(-i) else FromNat(i)
  }

  /** The value of a string of decimal digits. */
  function ToNat(s: string): nat
    requires AllDigits(s)
  {
    if |s| == 0 then 0 else 10 * ToNat(s[..|s| - 1]) + (s[|s| - 1] as int - '0' as int)
  }

  /** Reading back a rendered numeral gives the number. */
  lemma {:induction false} ToNatFromNat(n: nat)
    ensures ToNat(FromNat(n)) == n
    decreases n
  {
    if n >= 10 {
      var s := FromNat(n);
      assert s[..|s| - 1] == FromNat(n / 10);
      ToNatFromNat(n / 10);
    }
  }

  /** Different numbers render differently. */
  lemma FromNatInjective(a: nat, b: nat)
    ensures FromNat(a) == FromNat(b) ==> a == b
  {
    ToNatFromNat(a);
    ToNatFromNat(b);
  }
}

=== FILE: demo_quiz.dfy ===
/** `getDemoQuiz` (utils/geminiClient.js): the fixed ten-question physics
    quiz served whenever quiz generation fails. */
module DemoQuiz {
  import opened Wrappers
  import opened Js
  import opened JsonValue
  import opened QuizShape

  function DemoMcq(id: string, question: string, a: string, b: string, c: string, d: string,
                   answer: real, explanation: string): Question
  {
    Question(Str(id), MCQ, Str(question), Some([Str(a), Str(b), Str(c), Str(d)]), Num(answer), Some(Str(explanation)))
  }

  const DemoQuestions: seq<Question> := [
    DemoMcq("q1", "What is Newton's First Law of Motion?",
      "An object at rest stays at rest unless acted upon by force",
      "Force equals mass times acceleration",
      "Every action has an equal and opposite reaction",
      "Energy cannot be created or destroyed",
      0.0, "Newton's First Law states that an object will remain at rest or in uniform motion unless acted upon by an external force."),
    DemoMcq("q2", "What does F=ma represent?",
      "Force equals momentum times acceleration",
      "Force equals mass times acceleration",
      "Force equals mass times area",
      "Force equals motion times amplitude",
      1.0, "F=ma is Newton's Second Law, where Force equals mass multiplied by acceleration."),
    DemoMcq("q3", "What is the SI unit of force?",
      "Joule", "Newton", "Watt", "Pascal",
      1.0, "The Newton (N) is the SI unit of force, named after Isaac Newton."),
    DemoMcq("q4", "What is acceleration?",
      "The rate of change of velocity",
      "The rate of change of distance",
      "The total distance traveled",
      "The force applied to an object",
      0.0, "Acceleration is defined as the rate of change of velocity with respect to time."),
    DemoMcq("q5", "What is kinetic energy?",
      "Energy stored in an object",
      "Energy of motion",
      "Energy from heat",
      "Energy from light",
      1.0, "Kinetic energy is the energy an object possesses due to its motion."),
    DemoMcq("q6", "What is potential energy?",
      "Energy of motion",
      "Energy stored due to position",
      "Energy from electricity",
      "Energy from friction",
      1.0, "Potential energy is stored energy that depends on the position or configuration of an object."),
    DemoMcq("q7", "What is the law of conservation of energy?",
      "Energy can be created from nothing",
      "Energy can be destroyed",
      "Energy cannot be created or destroyed",
      "Energy always increases",
      2.0, "The law of conservation of energy states that energy cannot be created or destroyed, only transformed."),
    DemoMcq("q8", "What is friction?",
      "A force that helps motion",
      "A force that opposes motion",
      "A type of acceleration",
      "A form of energy",
      1.0, "Friction is a force that opposes the relative motion between two surfaces in contact."),
    DemoMcq("q9", "What is gravity?",
      "A pushing force",
      "An attractive force between masses",
      "A type of friction",
      "An electrical force",
      1.0, "Gravity is an attractive force that exists between any two masses."),
    DemoMcq("q10", "What is velocity?",
      "Speed in a specific direction",
      "Total distance traveled",
      "Force applied to object",
      "Rate of acceleration",
      0.0, "Velocity is speed in a specific direction, making it a vector quantity.")
  ]

  /** A well-formed multiple-choice question: four options and an answer
      that indexes one of them. */
  predicate AnswerableMcq(q: Question) {
    && q.qtype == MCQ
    && q.options.Some? && |q.options.value| == 4
    && q.answer.Num? && q.answer.n in {0.0, 1.0, 2.0, 3.0}
  }

  /** `getDemoQuiz(count)`: the first `count` demo questions (all but the
      last `-count` when `count` is negative). */
  function GetDemoQuiz(count: int): (r: seq<Question>)
    ensures 0 <= count ==> |r| == Min(count, 10)
    ensures count < 0 ==> |r| == Max(0, 10 + count)
    ensures forall k :: 0 <= k < |r| ==> Normalised(r[k]) && AnswerableMcq(r[k])
    ensures r <= DemoQuestions
  {
    DemoQuestionsWellFormed();
    SliceTo(DemoQuestions, count)
  }

  /** Asking for more demo questions only ever extends the list, and from
      10 on the whole demo quiz is returned. */
  lemma DemoQuizExtends(a: int, b: int)
    requires 0 <= a <= b
    ensures GetDemoQuiz(a) <= GetDemoQuiz(b)
    ensures b >= 10 ==> GetDemoQuiz(b) == DemoQuestions
  {
    DemoQuestionsWellFormed();
  }

  /** Every demo question is normalised and answerable, and their ids
      q1..q10 are pairwise distinct. */
  lemma DemoQuestionsWellFormed()
    ensures |DemoQuestions| == 10
    ensures forall k :: 0 <= k < |DemoQuestions| ==> Normalised(DemoQuestions[k]) && AnswerableMcq(DemoQuestions[k])
    ensures forall i, j :: 0 <= i < j < |DemoQuestions| ==> DemoQuestions[i].id != DemoQuestions[j].id
  {
  }
}

=== FILE: ids.dfy ===
/** The identifiers the handlers pass around: users (from the auth token)
    and stored PDFs, both MongoDB ids read as strings. */
module Ids {
  type UserId = string
  type PdfId = string
}

=== FILE: js.dfy ===
/** The handful of JavaScript built-ins the handlers rely on, with the
    behaviour the language gives them: `Math.max`/`Math.min`, `slice`,
    `join`, `trim`, and searching a string for a character. */
module Js {
  import opened Wrappers

  function Max(a: int, b: int): int { if a >= b then a else b }

  function Min(a: int, b: int): int { if a <= b then a else b }

  /** An optional string body field is truthy: present and non-empty, so
      `x || fallback` keeps it and `!x` is false. */
  predicate Present(x: Option<string>) {
    x.Some? && x.value != ""
  }

  /** `xs.slice(0, end)`: a negative `end` counts back from the end. */
  function SliceTo<T>(xs: seq<T>, end: int): (r: seq<T>)
    ensures r <= xs
    ensures 0 <= end ==> |r| == Min(end, |xs|)
    ensures end < 0 ==> |r| == Max(0, |xs| + end)
  {
    if 0 <= end then xs[..Min(end, |xs|)] else xs[..Max(0, |xs| + end)]
  }

  /** `xs.slice(start)`: a negative `start` counts back from the end. */
  function SliceFrom<T>(xs: seq<T>, start: int): (r: seq<T>)
    ensures |r| <= |xs| && r == xs[|xs| - |r|..]
    ensures start < 0 ==> |r| == Min(-start, |xs|)
    ensures 0 <= start ==> |r| == Max(0, |xs| - start)
  {
    if 0 <= start then xs[Min(start, |xs|)..] else xs[Max(0, |xs| + start)..]
  }

  /** `parts.join(sep)`. */
  function Join(parts: seq<string>, sep: string): string
  {
    if |parts| == 0 then ""
    else if |parts| == 1 then parts[0]
    else parts[0] + sep + Join(parts[1..], sep)
  }

  /** A join is at least as long as its separators. */
  lemma {:induction false} JoinLength(parts: seq<string>, sep: string)
    ensures |parts| >= 1 ==> |Join(parts, sep)| >= (|parts| - 1) * |sep|
  {
    if |parts| >= 2 {
      JoinLength(parts[1..], sep);
    }
  }

  /** Joining two non-empty lists is joining each and gluing the results
      with one separator. */
  lemma {:induction false} JoinConcat(a: seq<string>, b: seq<string>, sep: string)
    requires |a| > 0 && |b| > 0
    ensures Join(a + b, sep) == Join(a, sep) + sep + Join(b, sep)
  {
    if |a| == 1 {
      assert (a + b)[1..] == b;
    } else {
      assert (a + b)[1..] == a[1..] + b;
      JoinConcat(a[1..], b, sep);
    }
  }

  /** ECMAScript WhiteSpace and LineTerminator code points: what `trim`
      removes. */
  predicate IsWhiteSpace(c: char) {
    || c == '\t' || c == '\n' || c == '\U{000B}' || c == '\U{000C}' || c == '\r'
    || c == ' ' || c == '\U{00A0}' || c == '\U{1680}'
    || ('\U{2000}' <= c <= '\U{200A}')
    || c == '\U{2028}' || c == '\U{2029}' || c == '\U{202F}' || c == '\U{205F}'
    || c == '\U{3000}' || c == '\U{FEFF}'
  }

  predicate AllWhiteSpace(s: string) {
    forall k :: 0 <= k < |s| ==> IsWhiteSpace(s[k])
  }

  function TrimStart(s: string): (r: string)
    ensures |r| <= |s| && r == s[|s| - |r|..]
    ensures forall k :: 0 <= k < |s| - |r| ==> IsWhiteSpace(s[k])
    ensures |r| > 0 ==> !IsWhiteSpace(r[0])
  {
    if |s| > 0 && IsWhiteSpace(s[0]) then
      var r := TrimStart(s[1..]);
      assert forall k :: 1 <= k < |s| ==> s[k] == s[1..][k - 1];
      r
    else s
  }

  function TrimEnd(s: string): (r: string)
    ensures |r| <= |s| && r == s[..|r|]
    ensures forall k :: |r| <= k < |s| ==> IsWhiteSpace(s[k])
    ensures |r| > 0 ==> !IsWhiteSpace(r[|r| - 1])
  {
    if |s| > 0 && IsWhiteSpace(s[|s| - 1]) then
      var r := TrimEnd(s[..|s| - 1]);
      assert forall k :: 0 <= k < |s| - 1 ==> s[k] == s[..|s| - 1][k];
      r
    else s
  }

  /** `s.trim()`. */
  function Trim(s: string): string {
    TrimEnd(TrimStart(s))
  }

  /** `s.trim().length === 0` holds exactly when every character of `s` is
      white space. */
  lemma TrimEmptyIffBlank(s: string)
    ensures Trim(s) == "" <==> AllWhiteSpace(s)
  {
    var t := TrimStart(s);
    if Trim(s) == "" {
      assert AllWhiteSpace(t);
    }
    if AllWhiteSpace(s) {
      assert AllWhiteSpace(t);
    }
  }

  /** Text that neither starts nor ends with white space is its own trim. */
  lemma TrimUnchanged(s: string)
    requires |s| > 0 && !IsWhiteSpace(s[0]) && !IsWhiteSpace(s[|s| - 1])
    ensures Trim(s) == s
  {
  }

  /** `tag` occurs in `s` starting at index `k`. */
  predicate OccursAt(s: string, tag: string, k: int) {
    0 <= k && k + |tag| <= |s| && s[k..k + |tag|] == tag
  }

  /** `s.indexOf(c, from)`, with `None` for -1. */
  function IndexOf(s: string, c: char, from: nat): (r: Option<nat>)
    ensures r.Some? ==> from <= r.value < |s| && s[r.value] == c
    ensures r.Some? ==> forall k :: from <= k < r.value ==> s[k] != c
    ensures r.None? ==> forall k :: from <= k < |s| ==> s[k] != c
    decreases |s| - from
  {
    if from >= |s| then None
    else if s[from] == c then Some(from)
    else IndexOf(s, c, from + 1)
  }

  /** `s.lastIndexOf(c)`, with `None` for -1. */
  function LastIndexOf(s: string, c: char): (r: Option<nat>)
    ensures r.Some? ==> r.value < |s| && s[r.value] == c
    ensures r.Some? ==> forall k :: r.value < k < |s| ==> s[k] != c
    ensures r.None? ==> forall k :: 0 <= k < |s| ==> s[k] != c
  {
    if |s| == 0 then None
    else if s[|s| - 1] == c then Some(|s| - 1)
    else LastIndexOf(s[..|s| - 1], c)
  }
}

=== FILE: json.dfy ===
/** The value `JSON.parse` produces, JavaScript truthiness, and property
    reads on it. `JSON.parse` itself is an oracle: a `Parser`. */
module JsonValue {
  import opened Wrappers

  /** A parsed JSON value; numbers are exact (the model does not follow
      IEEE-754 rounding) and objects have already resolved duplicate keys. */
  datatype Json =
    | Null
    | Bool(b: bool)
    | Num(n: real)
    | Str(s: string)
    | Arr(items: seq<Json>)
    | Obj(fields: map<string, Json>)

  /** `JSON.parse`: `None` when it throws. */
  type Parser = string -> Option<Json>

  /** JavaScript truthiness of a parsed value. */
  predicate Truthy(v: Json) {
    match v
    case Null => false
    case Bool(b) => b
    case Num(n) => n != 0.0
    case Str(s) => |s| > 0
    case Arr(_) => true
    case Obj(_) => true
  }

  /** The property read `v.key` on a non-null value; `None` is `undefined`.
      Arrays, strings, numbers and booleans have none of the keys the model
      reads. */
  function Get(v: Json, key: string): Option<Json>
  {
    if v.Obj? && key in v.fields then Some(v.fields[key]) else None
  }

  /** `v.key` is defined and truthy. */
  predicate Given(v: Json, key: string) {
    Get(v, key).Some? && Truthy(Get(v, key).value)
  }

  /** `v.key || fallback`. */
  function OrElse(v: Json, key: string, fallback: Json): (r: Json)
    ensures Given(v, key) ==> r == Get(v, key).value
    ensures !Given(v, key) ==> r == fallback
  {
    if Given(v, key) then Get(v, key).value else fallback
  }
}

=== FILE: model_output.dfy ===
/** What the generative model hands back, and the text clean-up the quiz and
    video helpers apply before parsing it (utils/geminiClient.js). */
module ModelOutput {
  import opened Wrappers
  import opened Js

  /** The result of `model.generateContent(prompt)`, classified by the first
      branch of the duck-typing chain it satisfies. */
  datatype ModelReply =
      /** the call itself threw */
    | Rejected
      /** `response.text` is a method; `None` when calling it throws */
    | TextMethod(returned: Option<string>)
      /** `response.text` is a string */
    | TextField(text: string)
      /** `output_text` is a string */
    | OutputText(text: string)
      /** `response.contents` is an array; per entry its `text`, "" when
          falsy, or `None` for a `null` or `undefined` entry, on which
          reading `text` throws */
    | Contents(parts: seq<Option<string>>)
      /** none of the shapes above */
    | Unrecognised

  /** `result.response.text()` as the quiz and video helpers call it: only
      a reply whose `response.text` is a method that returns yields text;
      for every other shape the call throws. */
  function ResponseText(reply: ModelReply): (r: Option<string>)
    ensures r.Some? <==> reply.TextMethod? && reply.returned.Some?
    ensures r.Some? ==> reply == TextMethod(r)
  {
    if reply.TextMethod? then reply.returned else None
  }

  const Fence := "```"
  const JsonFence := "```json"

  /** `s.replace(/<tag>\n?/g, '')` for a literal `tag`: every occurrence,
      scanning left to right, is removed together with one newline that
      directly follows it. */
  function RemoveFence(s: string, tag: string): (r: string)
    requires |tag| > 0
    ensures |r| <= |s|
    decreases |s|
  {
    if |s| == 0 then ""
    else if OccursAt(s, tag, 0) then
      var rest := s[|tag|..];
      if |rest| > 0 && rest[0] == '\n' then RemoveFence(rest[1..], tag) else RemoveFence(rest, tag)
    else [s[0]] + RemoveFence(s[1..], tag)
  }

  /** No triple backtick anywhere in `s`. */
  predicate NoFence(s: string) {
    forall k :: 0 <= k < |s| ==> !OccursAt(s, Fence, k)
  }

  /** The markdown clean-up of geminiClient.js: first every "```json" then
      every "```" is removed, each with one following newline. */
  function StripFences(s: string): (r: string)
    ensures |r| <= |s|
    ensures NoFence(r)
  {
    var t := RemoveFence(s, JsonFence);
    NoFenceAfterRemove(t);
    RemoveFence(t, Fence)
  }

  lemma RemoveFenceKeepsHead(u: string)
    requires |u| > 0 && u[0] != '`'
    ensures |RemoveFence(u, Fence)| > 0 && RemoveFence(u, Fence)[0] == u[0]
  {
    assert !OccursAt(u, Fence, 0) by {
      assert u[0] != Fence[0];
    }
  }

  /** Removing every "```" leaves none behind: a kept backtick is never
      followed by a removed one, so no new fence is formed by the gluing. */
  lemma {:induction false} NoFenceAfterRemove(s: string)
    ensures NoFence(RemoveFence(s, Fence))
    decreases |s|
  {
    if |s| == 0 {
    } else if OccursAt(s, Fence, 0) {
      var rest := s[|Fence|..];
      if |rest| > 0 && rest[0] == '\n' {
        NoFenceAfterRemove(rest[1..]);
      } else {
        NoFenceAfterRemove(rest);
      }
    } else {
      var t := RemoveFence(s[1..], Fence);
      NoFenceAfterRemove(s[1..]);
      var r := [s[0]] + t;
      assert RemoveFence(s, Fence) == r;
      forall k | 0 <= k < |r|
        ensures !OccursAt(r, Fence, k)
      {
        if k > 0 {
          if k + 3 <= |r| {
            assert r[k..k + 3] == t[k - 1..k + 2];
          }
          assert !OccursAt(t, Fence, k - 1);
        } else if s[0] != '`' || |r| < 3 {
          assert |r| >= 3 ==> r[0..3][0] == s[0];
        } else {
          assert r[0..3] == [s[0], t[0], t[1]];
          if s[1] != '`' {
            RemoveFenceKeepsHead(s[1..]);
            assert t[0] != '`';
          } else {
            assert s[2] != '`' by {
              assert s[..3] != Fence;
            }
            var u := s[1..];
            assert !OccursAt(u, Fence, 0) by {
              assert u[1] == s[2];
            }
            assert t == [u[0]] + RemoveFence(u[1..], Fence);
            RemoveFenceKeepsHead(u[1..]);
            assert t[1] != '`';
          }
        }
      }
    }
  }

  /** A string in which `tag` never occurs is left as it is. */
  lemma {:induction false} RemoveFenceUnchanged(s: string, tag: string)
    requires |tag| > 0
    requires forall k :: 0 <= k < |s| ==> !OccursAt(s, tag, k)
    ensures RemoveFence(s, tag) == s
    decreases |s|
  {
    if |s| > 0 {
      forall k | 0 <= k < |s| - 1
        ensures !OccursAt(s[1..], tag, k)
      {
        assert !OccursAt(s, tag, k + 1);
        if k + |tag| <= |s| - 1 {
          assert s[1..][k..k + |tag|] == s[k + 1..k + 1 + |tag|];
        }
      }
      RemoveFenceUnchanged(s[1..], tag);
    }
  }

  /** Text without a backtick passes the clean-up untouched. */
  lemma StripFencesUnchanged(s: string)
    requires forall k :: 0 <= k < |s| ==> s[k] != '`'
    ensures StripFences(s) == s
  {
    forall k | 0 <= k < |s|
      ensures !OccursAt(s, JsonFence, k) && !OccursAt(s, Fence, k)
    {
      if k + 1 <= |s| {
        assert JsonFence[0] == '`' && Fence[0] == '`';
        assert k + |JsonFence| <= |s| ==> s[k..k + |JsonFence|][0] == s[k];
        assert k + |Fence| <= |s| ==> s[k..k + |Fence|][0] == s[k];
      }
    }
    RemoveFenceUnchanged(s, JsonFence);
    RemoveFenceUnchanged(s, Fence);
  }

  /** Removal of a backtick tag passes over backtick-free text untouched. */
  lemma {:induction false} RemoveFenceSkipsPlain(t: string, tail: string, tag: string)
    requires |tag| > 0 && tag[0] == '`'
    requires forall k :: 0 <= k < |t| ==> t[k] != '`'
    ensures RemoveFence(t + tail, tag) == t + RemoveFence(tail, tag)
    decreases |t|
  {
    if |t| == 0 {
      assert t + tail == tail;
    } else {
      var s := t + tail;
      assert !OccursAt(s, tag, 0) by {
        if |tag| <= |s| {
          assert s[..|tag|][0] == t[0];
        }
      }
      assert s[1..] == t[1..] + tail;
      RemoveFenceSkipsPlain(t[1..], tail, tag);
    }
  }

  /** The usual shape of a fenced reply, "```json", a newline, the payload
      and a closing "```", is cleaned to exactly the payload when the
      payload holds no backtick. */
  lemma StripJsonFence(t: string)
    requires forall k :: 0 <= k < |t| ==> t[k] != '`'
    ensures StripFences(JsonFence + "\n" + t + Fence) == t
  {
    var s := JsonFence + "\n" + t + Fence;
    assert OccursAt(s, JsonFence, 0) by {
      assert s[..|JsonFence|] == JsonFence;
    }
    assert s[|JsonFence|..] == "\n" + t + Fence;
    assert ("\n" + t + Fence)[1..] == t + Fence;
    RemoveFenceSkipsPlain(t, Fence, JsonFence);
    RemoveFenceUnchanged(Fence, JsonFence);
    assert RemoveFence(s, JsonFence) == t + Fence;
    RemoveFenceSkipsPlain(t, Fence, Fence);
    assert OccursAt(Fence, Fence, 0);
    assert RemoveFence(Fence, Fence) == "";
  }

  /** `s.match(/\{[\s\S]*\}/)[0]`: the greedy match runs from the first `{`
      to the last `}` after it; there is none when no `{` precedes a `}`. */
  function GreedyObject(s: string): (r: Option<string>)
    ensures r.Some? <==> exists i, j :: 0 <= i < j < |s| && s[i] == '{' && s[j] == '}'
    ensures r.Some? ==> exists i, j ::
      && 0 <= i < j < |s| && s[i] == '{' && s[j] == '}' && r.value == s[i..j + 1]
      && (forall k :: 0 <= k < i ==> s[k] != '{')
      && (forall k :: j < k < |s| ==> s[k] != '}')
  {
    match IndexOf(s, '{', 0)
    case None => None
    case Some(i) =>
      match LastIndexOf(s, '}')
      case None => None
      case Some(j) => if i < j then Some(s[i..j + 1]) else None
  }

  /** Text framed by `{`-free text before and `}`-free text after an object
      literal yields that literal as the greedy match. */
  lemma GreedyObjectFramed(before: string, obj: string, after: string)
    requires |obj| >= 2 && obj[0] == '{' && obj[|obj| - 1] == '}'
    requires forall k :: 0 <= k < |before| ==> before[k] != '{'
    requires forall k :: 0 <= k < |after| ==> after[k] != '}'
    ensures GreedyObject(before + obj + after) == Some(obj)
  {
    var s := before + obj + after;
    var i0, j0 := |before|, |before| + |obj| - 1;
    assert s[i0] == '{' && s[j0] == '}';
    forall k | 0 <= k < i0
      ensures s[k] != '{'
    {
      assert s[k] == before[k];
    }
    forall k | j0 < k < |s|
      ensures s[k] != '}'
    {
      assert s[k] == after[k - j0 - 1];
    }
    assert IndexOf(s, '{', 0) == Some(i0);
    assert LastIndexOf(s, '}') == Some(j0);
    assert s[i0..j0 + 1] == obj;
  }

  /** `s.match(/\[([\s\S]*?)\]/)[1]`: the lazy match runs from the first `[`
      to the first `]` after it, and the captured text lies between them. */
  function FirstBracketed(s: string): (r: Option<string>)
    ensures r.Some? <==> exists i, j :: 0 <= i < j < |s| && s[i] == '[' && s[j] == ']'
    ensures r.Some? ==> exists i, j ::
      && 0 <= i < j < |s| && s[i] == '[' && s[j] == ']' && r.value == s[i + 1..j]
      && (forall k :: 0 <= k < i ==> s[k] != '[')
      && (forall k :: i < k < j ==> s[k] != ']')
  {
    match IndexOf(s, '[', 0)
    case None => None
    case Some(i) =>
      match IndexOf(s, ']', i + 1)
      case None => None
      case Some(j) => Some(s[i + 1..j])
  }
}

=== FILE: quiz_generation.dfy ===
/** `generateQuizQuestions` (utils/geminiClient.js): the question-type mix
    asked for, recovery of JSON from the model's text, normalisation of the
    parsed lists, truncation, and the fallback to the demo quiz. */
module QuizGeneration {
  import opened Wrappers
  import opened Js
  import opened JsonValue
  import opened ModelOutput
  import opened QuizShape
  import opened DemoQuiz

  const DefaultQuestionCount := 10

  /** How many questions of each type the prompt asks for. */
  datatype Mix = Mix(mcq: int, saq: int, laq: int) {
    function Total(): int { mcq + saq + laq }
  }

  /** The 60/30/10 split: `max(1, floor(0.6 c))` MCQs, `max(1, floor(0.3 c))`
      SAQs and the rest, but at least one, LAQs. */
  function QuestionMix(count: int): (m: Mix)
    ensures m.mcq >= 1 && m.saq >= 1 && m.laq >= 1
    ensures count >= 2 ==> m.mcq == 6 * count / 10
    ensures count >= 4 ==> m.saq == 3 * count / 10
    ensures m.mcq >= m.saq
  {
    var mcq := Max(1, 6 * count / 10);
    var saq := Max(1, 3 * count / 10);
    Mix(mcq, saq, Max(1, count - mcq - saq))
  }

  /** The three counts add up to the requested count exactly when it is at
      least 3; below that every type still gets one question, so the prompt
      asks for 3. */
  lemma MixTotal(count: int)
    ensures QuestionMix(count).Total() == count <==> count >= 3
    ensures count < 3 ==> QuestionMix(count) == Mix(1, 1, 1)
  {
  }

  const PlaceholderOptions: seq<Json> := [Str("Option A"), Str("Option B"), Str("Option C"), Str("Option D")]
  const NoExplanation := Str("No explanation provided")
  const NoModelAnswer := Str("Model answer not provided")

  function Untitled(t: QType): Json {
    Str("Untitled " + t.Name())
  }

  /** Every field `item` supplies in usable form is kept. */
  predicate KeepsGiven(item: Json, q: Question) {
    && (Given(item, "id") ==> q.id == Get(item, "id").value)
    && (Given(item, "question") ==> q.question == Get(item, "question").value)
    && (q.qtype == MCQ ==>
          && (Get(item, "options").Some? && Get(item, "options").value.Arr? ==>
                q.options == Some(Get(item, "options").value.items))
          && (Get(item, "answer").Some? && Get(item, "answer").value.Num? ==>
                q.answer == Get(item, "answer").value)
          && (Given(item, "explanation") ==> q.explanation == Some(Get(item, "explanation").value)))
    && (q.qtype != MCQ && Given(item, "answer") ==> q.answer == Get(item, "answer").value)
  }

  /** Every field `item` lacks, or supplies in unusable form, gets its
      default; `i` is the item's index within its group. */
  predicate FillsDefaults(item: Json, i: nat, q: Question) {
    && (!Given(item, "id") ==> q.id == DefaultId(q.qtype, i))
    && (!Given(item, "question") ==> q.question == Untitled(q.qtype))
    && (q.qtype == MCQ ==>
          && (!(Get(item, "options").Some? && Get(item, "options").value.Arr?) ==>
                q.options == Some(PlaceholderOptions))
          && (!(Get(item, "answer").Some? && Get(item, "answer").value.Num?) ==>
                q.answer == Num(0.0))
          && (!Given(item, "explanation") ==> q.explanation == Some(NoExplanation)))
    && (q.qtype != MCQ && !Given(item, "answer") ==> q.answer == NoModelAnswer)
  }

  /** One step of a `forEach` over the list for type `t`: item `item` at
      index `i`. Reading a property of `null` throws (`None`); the `type`
      field of the item is never consulted. */
  function NormaliseItem(item: Json, i: nat, t: QType): (r: Option<Question>)
    ensures r.None? <==> item.Null?
    ensures r.Some? ==> r.value.qtype == t
    ensures r.Some? ==> Normalised(r.value) && KeepsGiven(item, r.value) && FillsDefaults(item, i, r.value)
  {
    if item.Null? then None
    else
      var id := OrElse(item, "id", DefaultId(t, i));
      var question := OrElse(item, "question", Untitled(t));
      if t == MCQ then
        var opts := Get(item, "options");
        var ans := Get(item, "answer");
        Some(Question(
          id, MCQ, question,
          Some(if opts.Some? && opts.value.Arr? then opts.value.items else PlaceholderOptions),
          if ans.Some? && ans.value.Num? then ans.value else Num(0.0),
          Some(OrElse(item, "explanation", NoExplanation))))
      else
        Some(Question(id, t, question, None, OrElse(item, "answer", NoModelAnswer), None))
  }

  /** Normalising the JSON a normalised question is sent as gives the
      question back: normalisation is a fixpoint on its own output. */
  lemma NormaliseToJson(q: Question, i: nat)
    requires Normalised(q)
    ensures NormaliseItem(ToJson(q), i, q.qtype) == Some(q)
  {
    var j := ToJson(q);
    assert Get(j, "id") == Some(q.id);
    assert Get(j, "question") == Some(q.question);
    assert Get(j, "answer") == Some(q.answer);
    if q.qtype == MCQ {
      assert Get(j, "options") == Some(Arr(q.options.value));
      assert Get(j, "explanation") == Some(q.explanation.value);
    }
  }

  /** `list.forEach(...)` over the list for type `t`: `None` when an item
      is `null`, otherwise item `k` becomes question `k`. */
  function NormaliseGroup(items: seq<Json>, t: QType): (r: Option<seq<Question>>)
    ensures r.None? <==> exists k :: 0 <= k < |items| && items[k].Null?
    ensures r.Some? ==> |r.value| == |items|
    ensures r.Some? ==> forall k :: 0 <= k < |items| ==> NormaliseItem(items[k], k, t) == Some(r.value[k])
    ensures r.Some? ==> AllOfType(r.value, t) && AllNormalised(r.value)
  {
    if |items| == 0 then Some([])
    else
      var init := items[..|items| - 1];
      assert forall k :: 0 <= k < |init| ==> init[k] == items[k];
      match NormaliseGroup(init, t)
      case None => None
      case Some(qs) =>
        match NormaliseItem(items[|items| - 1], |items| - 1, t)
        case None => None
        case Some(q) => Some(qs + [q])
  }

  /** `(data.<key> || [])` ready for `forEach`: an absent or falsy list is
      empty, an array is its items, any other truthy value has no `forEach`
      and throws (`None`). */
  function GroupOf(data: Json, key: string): (r: Option<seq<Json>>)
    requires !data.Null?
    ensures !Given(data, key) ==> r == Some([])
    ensures Given(data, key) ==> (r.Some? <==> Get(data, key).value.Arr?)
    ensures r.Some? && Given(data, key) ==> r.value == Get(data, key).value.items
  {
    if !Given(data, key) then Some([])
    else if Get(data, key).value.Arr? then Some(Get(data, key).value.items)
    else None
  }

  /** `data.<key>` survives `(data.<key> || []).forEach(...)`: it is absent
      or falsy, or an array without a `null` item. */
  predicate Walkable(data: Json, key: string) {
    !Given(data, key)
    || (Get(data, key).value.Arr?
        && forall k :: 0 <= k < |Get(data, key).value.items| ==> !Get(data, key).value.items[k].Null?)
  }

  /** A parsed reply the normalisation accepts. */
  predicate Normalisable(data: Json) {
    !data.Null? && Walkable(data, "mcqs") && Walkable(data, "saqs") && Walkable(data, "laqs")
  }

  /** The three source lists of a parsed reply, when all are usable. */
  function Groups(data: Json): Option<(seq<Json>, seq<Json>, seq<Json>)>
  {
    if data.Null? then None
    else
      match (GroupOf(data, "mcqs"), GroupOf(data, "saqs"), GroupOf(data, "laqs"))
      case (Some(m), Some(s), Some(l)) => Some((m, s, l))
      case _ => None
  }

  /** Flatten and normalise: all MCQs, then all SAQs, then all LAQs. `None`
      when the code throws (a `null` reply, a list that is not an array, a
      `null` item). */
  function Normalise(data: Json): (r: Option<seq<Question>>)
    ensures r.Some? <==> Normalisable(data)
    ensures r.Some? ==> Groups(data).Some?
    ensures r.Some? ==> |r.value| == |Groups(data).value.0| + |Groups(data).value.1| + |Groups(data).value.2|
    ensures r.Some? ==> AllNormalised(r.value) && KindsOrdered(r.value)
  {
    match Groups(data)
    case None => None
    case Some((m, s, l)) =>
      match (NormaliseGroup(m, MCQ), NormaliseGroup(s, SAQ), NormaliseGroup(l, LAQ))
      case (Some(qm), Some(qs), Some(ql)) =>
        ConcatGroupsOrdered(qm, qs, ql);
        Some(qm + qs + ql)
      case _ => None
  }

  /** Each group keeps its input order: the question at position `k` of the
      output is the normalised item at its place in its own list. */
  lemma NormaliseOrder(data: Json)
    requires Normalise(data).Some?
    ensures var (m, s, l) := Groups(data).value;
            var r := Normalise(data).value;
            && (forall k :: 0 <= k < |m| ==> NormaliseItem(m[k], k, MCQ) == Some(r[k]))
            && (forall k :: 0 <= k < |s| ==> NormaliseItem(s[k], k, SAQ) == Some(r[|m| + k]))
            && (forall k :: 0 <= k < |l| ==> NormaliseItem(l[k], k, LAQ) == Some(r[|m| + |s| + k]))
  {
    var (m, s, l) := Groups(data).value;
    var qm := NormaliseGroup(m, MCQ).value;
    var qs := NormaliseGroup(s, SAQ).value;
    var ql := NormaliseGroup(l, LAQ).value;
    assert Normalise(data).value == qm + qs + ql;
    ConcatIndex(qm, qs, ql);
  }

  /** Where each part of a three-way concatenation lands. */
  lemma ConcatIndex<T>(a: seq<T>, b: seq<T>, c: seq<T>)
    ensures forall k :: 0 <= k < |a| ==> (a + b + c)[k] == a[k]
    ensures forall k :: 0 <= k < |b| ==> (a + b + c)[|a| + k] == b[k]
    ensures forall k :: 0 <= k < |c| ==> (a + b + c)[|a| + |b| + k] == c[k]
  {
  }

  /** The parse chain: `JSON.parse(text)`; if that throws, `JSON.parse` of
      the greedy `{...}` match; `None` when there is no match or the second
      parse throws too. */
  function RecoverJson(text: string, parse: Parser): (r: Option<Json>)
    ensures parse(text).Some? ==> r == parse(text)
    ensures r.Some? && parse(text).None? ==>
      exists i, j :: 0 <= i < j < |text| && text[i] == '{' && text[j] == '}' && r == parse(text[i..j + 1])
    ensures parse(text).None? && (forall i, j :: 0 <= i < j < |text| && text[i] == '{' ==> text[j] != '}') ==> r.None?
    ensures parse(text).None? && GreedyObject(text).Some? ==> r == parse(GreedyObject(text).value)
  {
    match parse(text)
    case Some(v) => Some(v)
    case None =>
      match GreedyObject(text)
      case None => None
      case Some(sub) => parse(sub)
  }

  /** The body of the `try`: the reply's text, trimmed, cleaned of fences,
      parsed and normalised. `None` when anything in it throws. */
  function QuestionsFromReply(reply: ModelReply, parse: Parser): (r: Option<seq<Question>>)
    ensures ResponseText(reply).None? ==> r.None?
    ensures ResponseText(reply).Some? ==>
      var data := RecoverJson(StripFences(Trim(ResponseText(reply).value)), parse);
      && (r.Some? <==> data.Some? && Normalisable(data.value))
      && (r.Some? ==> r == Normalise(data.value))
  {
    match ResponseText(reply)
    case None => None
    case Some(raw) =>
      match RecoverJson(StripFences(Trim(raw)), parse)
      case None => None
      case Some(data) => Normalise(data)
  }

  datatype QuizError = TextMustBeNonEmpty

  /** `generateQuizQuestions(text, count)` given the model's reply.
      Whitespace-only text is rejected before the model is asked; every
      later failure is answered with the demo quiz. */
  function GenerateQuizQuestions(text: string, count: Option<int>, reply: ModelReply, parse: Parser)
    : (r: Result<seq<Question>, QuizError>)
    ensures r.Failure? <==> AllWhiteSpace(text)
    ensures r.Success? && 0 <= count.GetOr(DefaultQuestionCount) ==> |r.value| <= count.GetOr(DefaultQuestionCount)
    ensures r.Success? ==> AllNormalised(r.value) && KindsOrdered(r.value)
    ensures r.Success? && QuestionsFromReply(reply, parse).None? ==>
      r.value == GetDemoQuiz(count.GetOr(DefaultQuestionCount))
    ensures r.Success? && QuestionsFromReply(reply, parse).Some? ==>
      var qs := QuestionsFromReply(reply, parse).value;
      var c := count.GetOr(DefaultQuestionCount);
      && r.value <= qs
      && (0 <= c ==> |r.value| == Min(c, |qs|))
      && (c < 0 ==> |r.value| == Max(0, |qs| + c))
  {
    TrimEmptyIffBlank(text);
    var c := count.GetOr(DefaultQuestionCount);
    if Trim(text) == "" then Failure(TextMustBeNonEmpty)
    else
      Success(Outcome(QuestionsFromReply(reply, parse), c))
  }

  /** What the function returns once the model has replied: the `try`'s
      questions cut to `count`, or the `catch`'s demo quiz when the `try`
      threw (`None`). */
  function Outcome(got: Option<seq<Question>>, count: int): (r: seq<Question>)
    requires got.Some? ==> AllNormalised(got.value) && KindsOrdered(got.value)
    ensures AllNormalised(r) && KindsOrdered(r)
    ensures 0 <= count ==> |r| <= count
    ensures got.None? ==> r == GetDemoQuiz(count)
    ensures got.Some? ==> r <= got.value
    ensures got.Some? && 0 <= count ==> |r| == Min(count, |got.value|)
    ensures got.Some? && count < 0 ==> |r| == Max(0, |got.value| + count)
  {
    if got.None? then
      DemoQuizShape(count);
      GetDemoQuiz(count)
    else
      Truncate(got.value, count)
  }

  /** `questions.slice(0, count)` on a normalised, grouped list. */
  function Truncate(qs: seq<Question>, count: int): (r: seq<Question>)
    requires AllNormalised(qs) && KindsOrdered(qs)
    ensures r <= qs && AllNormalised(r) && KindsOrdered(r)
    ensures 0 <= count ==> |r| == Min(count, |qs|)
    ensures count < 0 ==> |r| == Max(0, |qs| + count)
  {
    PrefixKeepsShape(qs, SliceTo(qs, count));
    SliceTo(qs, count)
  }

  /** The demo quiz has the shape of a normalised quiz: all MCQs. */
  lemma DemoQuizShape(count: int)
    ensures AllNormalised(GetDemoQuiz(count)) && KindsOrdered(GetDemoQuiz(count))
  {
    var demo := GetDemoQuiz(count);
    assert forall k :: 0 <= k < |demo| ==> demo[k].qtype == MCQ;
  }

  /** A reply from which no JSON value can be recovered, whole or between
      its outermost braces, yields the demo quiz. */
  lemma UnparseableReplyGivesDemo(text: string, count: Option<int>, raw: string, parse: Parser)
    requires !AllWhiteSpace(text)
    requires RecoverJson(StripFences(Trim(raw)), parse).None?
    ensures GenerateQuizQuestions(text, count, TextMethod(Some(raw)), parse)
         == Success(GetDemoQuiz(count.GetOr(DefaultQuestionCount)))
  {
  }

  /** A reply that parses to a value without any of the three lists (an
      array, a number, a string, a boolean, or an object lacking `mcqs`,
      `saqs` and `laqs`) yields no questions at all rather than the demo
      quiz: the parse succeeds and every `(data.<key> || [])` is empty. */
  lemma ParsedNonQuizGivesEmpty(text: string, count: Option<int>, raw: string, parse: Parser, v: Json)
    requires !AllWhiteSpace(text)
    requires parse(StripFences(Trim(raw))) == Some(v)
    requires !v.Null? && !Given(v, "mcqs") && !Given(v, "saqs") && !Given(v, "laqs")
    ensures GenerateQuizQuestions(text, count, TextMethod(Some(raw)), parse) == Success([])
  {
    NoListsNormaliseEmpty(v);
    assert RecoverJson(StripFences(Trim(raw)), parse) == Some(v);
    assert QuestionsFromReply(TextMethod(Some(raw)), parse) == Some([]);
    assert Outcome(Some([]), count.GetOr(DefaultQuestionCount)) == [];
  }

  /** A value with none of the three lists normalises to no questions. */
  lemma NoListsNormaliseEmpty(v: Json)
    requires !v.Null? && !Given(v, "mcqs") && !Given(v, "saqs") && !Given(v, "laqs")
    ensures Normalise(v) == Some([])
  {
    assert Groups(v) == Some(([], [], []));
    assert NormaliseGroup([], MCQ) == Some([]);
  }

  /** When the direct parse fails, the object literal between `{`-free
      leading text and `}`-free trailing text is what gets parsed: prose
      around the JSON is ignored. */
  lemma FramedObjectRecovered(before: string, obj: string, after: string, parse: Parser)
    requires |obj| >= 2 && obj[0] == '{' && obj[|obj| - 1] == '}'
    requires forall k :: 0 <= k < |before| ==> before[k] != '{'
    requires forall k :: 0 <= k < |after| ==> after[k] != '}'
    requires parse(before + obj + after).None?
    ensures RecoverJson(before + obj + after, parse) == parse(obj)
  {
    GreedyObjectFramed(before, obj, after);
  }

  /** A reply fenced as "```json" ... "```" around a payload that parses
      to a normalisable value yields the first `count` of its normalised
      questions. */
  lemma FencedReplyGivesQuestions(text: string, count: Option<int>, payload: string, parse: Parser, data: Json)
    requires !AllWhiteSpace(text)
    requires forall k :: 0 <= k < |payload| ==> payload[k] != '`'
    requires parse(payload) == Some(data) && Normalisable(data)
    ensures var r := GenerateQuizQuestions(text, count, TextMethod(Some(JsonFence + "\n" + payload + Fence)), parse);
            var qs := Normalise(data).value;
            var c := count.GetOr(DefaultQuestionCount);
            && r.Success? && r.value <= qs
            && (0 <= c ==> |r.value| == Min(c, |qs|))
  {
    var raw := JsonFence + "\n" + payload + Fence;
    assert raw[0] == '`' && raw[|raw| - 1] == '`';
    TrimUnchanged(raw);
    StripJsonFence(payload);
  }
}

=== FILE: quiz_shape.dfy ===
/** The uniform question shape `generateQuizQuestions` returns
    (utils/geminiClient.js), and how a question renders back to JSON. */
module QuizShape {
  import opened Wrappers
  import opened Decimal
  import opened JsonValue

  datatype QType = MCQ | SAQ | LAQ {

    /** Position of the type's group in the output. */
    function Rank(): nat {
      match this
      case MCQ => 0
      case SAQ => 1
      case LAQ => 2
    }

    /** The value of the `type` field. */
    function Name(): string {
      match this
      case MCQ => "MCQ"
      case SAQ => "SAQ"
      case LAQ => "LAQ"
    }

    /** The prefix of generated ids: `mcq_1`, `saq_1`, `laq_1`. */
    function IdPrefix(): string {
      match this
      case MCQ => "mcq"
      case SAQ => "saq"
      case LAQ => "laq"
    }
  }

  /** A normalised question. `options` and `explanation` are present on
      multiple-choice questions only; field values are whatever JSON the
      model supplied when it supplied a usable one. */
  datatype Question = Question(
    id: Json,
    qtype: QType,
    question: Json,
    options: Option<seq<Json>>,
    answer: Json,
    explanation: Option<Json>)

  /** The shape every normalised question has: truthy id and question text;
      a multiple-choice question carries an options array, a numeric answer
      and a truthy explanation; a written one carries a truthy model answer
      and nothing else. */
  predicate Normalised(q: Question) {
    && Truthy(q.id)
    && Truthy(q.question)
    && (q.qtype == MCQ ==>
          q.options.Some? && q.answer.Num? && q.explanation.Some? && Truthy(q.explanation.value))
    && (q.qtype != MCQ ==>
          q.options.None? && q.explanation.None? && Truthy(q.answer))
  }

  predicate AllNormalised(qs: seq<Question>) {
    forall k :: 0 <= k < |qs| ==> Normalised(qs[k])
  }

  /** Questions appear grouped: all MCQs, then all SAQs, then all LAQs. */
  predicate KindsOrdered(qs: seq<Question>) {
    forall i, j :: 0 <= i < j < |qs| ==> qs[i].qtype.Rank() <= qs[j].qtype.Rank()
  }

  /** A prefix of a normalised, grouped list is normalised and grouped. */
  lemma PrefixKeepsShape(qs: seq<Question>, r: seq<Question>)
    requires r <= qs && AllNormalised(qs) && KindsOrdered(qs)
    ensures AllNormalised(r) && KindsOrdered(r)
  {
    assert forall k :: 0 <= k < |r| ==> r[k] == qs[k];
  }

  /** A list of questions all of one type. */
  predicate AllOfType(qs: seq<Question>, t: QType) {
    forall k :: 0 <= k < |qs| ==> qs[k].qtype == t
  }

  /** Concatenating a group of MCQs, a group of SAQs and a group of LAQs
      gives a grouped list. */
  lemma ConcatGroupsOrdered(qm: seq<Question>, qs: seq<Question>, ql: seq<Question>)
    requires AllOfType(qm, MCQ) && AllOfType(qs, SAQ) && AllOfType(ql, LAQ)
    requires AllNormalised(qm) && AllNormalised(qs) && AllNormalised(ql)
    ensures KindsOrdered(qm + qs + ql) && AllNormalised(qm + qs + ql)
  {
    var all := qm + qs + ql;
    forall k | 0 <= k < |all|
      ensures Normalised(all[k])
      ensures all[k].qtype.Rank() == if k < |qm| then 0 else if k < |qm| + |qs| then 1 else 2
    {
      if k < |qm| {
        assert all[k] == qm[k];
      } else if k < |qm| + |qs| {
        assert all[k] == qs[k - |qm|];
      } else {
        assert all[k] == ql[k - |qm| - |qs|];
      }
    }
  }

  /** The id a question without a truthy one receives: `<prefix>_<i + 1>`
      for the question at index `i` of its group. */
  function DefaultId(t: QType, i: nat): Json {
    Str(t.IdPrefix() + "_" + FromNat(i + 1))
  }

  /** Generated ids never collide: distinct groups or distinct positions
      give distinct ids. */
  lemma DefaultIdsDistinct(t: QType, i: nat, u: QType, j: nat)
    requires DefaultId(t, i) == DefaultId(u, j)
    ensures t == u && i == j
  {
    var a := t.IdPrefix() + "_" + FromNat(i + 1);
    var b := u.IdPrefix() + "_" + FromNat(j + 1);
    assert a[..3] == t.IdPrefix() && b[..3] == u.IdPrefix();
    assert a[4..] == FromNat(i + 1) && b[4..] == FromNat(j + 1);
    FromNatInjective(i + 1, j + 1);
  }

  /** The JSON object the server sends for a question. */
  function ToJson(q: Question): Json {
    var common := map["id" := q.id, "type" := Str(q.qtype.Name()), "question" := q.question, "answer" := q.answer];
    if q.qtype == MCQ && q.options.Some? && q.explanation.Some? then
      Obj(common["options" := Arr(q.options.value)]["explanation" := q.explanation.value])
    else Obj(common)
  }
}

=== FILE: video_recommendations.dfy ===
/** `getVideoRecommendations` (utils/geminiClient.js): the model's search
    queries become at most three mock video entries. */
module VideoRecommendations {
  import opened Wrappers
  import opened Js
  import opened Decimal
  import opened JsonValue
  import opened ModelOutput

  /** A recommended video; the `views` figure is not modelled. */
  datatype Video = Video(title: Json, duration: string)

  const FallbackQueries: seq<Json> := [
    Str("Physics class 11 full chapter"),
    Str("NCERT Physics explained"),
    Str("Conceptual physics for beginners")
  ]

  /** The duration label of entry `i`: minutes `10 + 3i`, seconds
      `(30 + 15i) mod 60`, neither padded. */
  function Duration(i: nat): string {
    FromNat(10 + 3 * i) + ":" + FromNat((30 + 15 * i) % 60)
  }

  /** The three labels shown; the third has an unpadded "0" seconds. */
  lemma DurationLabels()
    ensures Duration(0) == "10:30" && Duration(1) == "13:45" && Duration(2) == "16:0"
  {
    assert FromNat(10) == FromNat(1) + [DigitChar(0)];
    assert FromNat(13) == FromNat(1) + [DigitChar(3)];
    assert FromNat(16) == FromNat(1) + [DigitChar(6)];
    assert FromNat(30) == FromNat(3) + [DigitChar(0)];
    assert FromNat(45) == FromNat(4) + [DigitChar(5)];
  }

  /** `queries.slice(0, 3).map((query, i) => ...)`. */
  function ShapeVideos(queries: seq<Json>): (vs: seq<Video>)
    ensures |vs| == Min(3, |queries|)
    ensures forall i :: 0 <= i < |vs| ==> vs[i].title == queries[i] && vs[i].duration == Duration(i)
  {
    var top := SliceTo(queries, 3);
    seq(|top|, i requires 0 <= i < |top| => Video(top[i], Duration(i)))
  }

  /** The query chain: `JSON.parse(text)`; if that throws and a `[...]`
      occurs, `JSON.parse` of the first bracketed text re-wrapped in
      brackets (`None` when that throws); otherwise the three fallback
      queries. */
  function RecoverQueries(text: string, parse: Parser): (r: Option<Json>)
    ensures parse(text).Some? ==> r == parse(text)
    ensures parse(text).None? && (exists i, j :: 0 <= i < j < |text| && text[i] == '[' && text[j] == ']') ==>
      exists i, j ::
        && 0 <= i < j < |text| && text[i] == '[' && text[j] == ']'
        && (forall k :: 0 <= k < i ==> text[k] != '[')
        && (forall k :: i < k < j ==> text[k] != ']')
        && r == parse("[" + text[i + 1..j] + "]")
    ensures parse(text).None? && (forall i, j :: 0 <= i < j < |text| && text[i] == '[' ==> text[j] != ']') ==>
      r == Some(Arr(FallbackQueries))
  {
    match parse(text)
    case Some(v) => Some(v)
    case None =>
      match FirstBracketed(text)
      case Some(inner) => parse("[" + inner + "]")
      case None => Some(Arr(FallbackQueries))
  }

  /** `getVideoRecommendations(context)` given the model's reply. `None`
      when the function rejects: any failure lands in its `catch`, whose
      `mockVideos` is not defined in the file, so the catch itself throws. */
  function GetVideoRecommendations(reply: ModelReply, parse: Parser): (r: Option<seq<Video>>)
    ensures r.Some? ==> |r.value| <= 3
    ensures ResponseText(reply).None? ==> r.None?
    ensures r.Some? ==> exists queries :: RecoverQueries(StripFences(Trim(ResponseText(reply).value)), parse) == Some(Arr(queries))
                                       && r.value == ShapeVideos(queries)
    ensures ResponseText(reply).Some? ==>
      forall qs :: RecoverQueries(StripFences(Trim(ResponseText(reply).value)), parse) == Some(Arr(qs)) ==>
        r == Some(ShapeVideos(qs))
  {
    match ResponseText(reply)
    case None => None
    case Some(raw) =>
      match RecoverQueries(StripFences(Trim(raw)), parse)
      case Some(Arr(queries)) => Some(ShapeVideos(queries))
      case _ => None
  }

  /** A reply with no JSON in it and no bracketed text yields the three
      fallback topics as titles. */
  lemma FallbackVideos(raw: string, parse: Parser)
    requires parse(StripFences(Trim(raw))).None?
    requires forall i, j :: 0 <= i < j < |StripFences(Trim(raw))| && StripFences(Trim(raw))[i] == '[' ==> StripFences(Trim(raw))[j] != ']'
    ensures GetVideoRecommendations(TextMethod(Some(raw)), parse).Some?
    ensures var vs := GetVideoRecommendations(TextMethod(Some(raw)), parse).value;
            |vs| == 3 && forall i :: 0 <= i < 3 ==> vs[i].title == FallbackQueries[i]
  {
  }

  /** A parsed reply that is not an array (a string, an object, a number)
      makes the function reject. */
  lemma NonArrayRejects(raw: string, parse: Parser)
    requires parse(StripFences(Trim(raw))).Some? && !parse(StripFences(Trim(raw))).value.Arr?
    ensures GetVideoRecommendations(TextMethod(Some(raw)), parse).None?
  {
  }
}

=== FILE: videos_route.dfy ===
/** POST `/recommend-videos` (routes/videos.js): who may ask for videos
    about a PDF, and the response they get. */
module VideosRoute {
  import opened Wrappers
  import opened Js
  import opened Ids
  import opened Decimal
  import opened JsonValue
  import opened ModelOutput
  import opened VideoRecommendations

  /** A PDF record as the handler reads it. `uploader` is `None` for the
      seeded defaults and for uploads, which never set it. `isDefault` is
      not a field of the PDF schema, so it reads as false for every stored
      record, the seeded ones included: the seed script's `isDefault: true`
      is dropped on save. */
  datatype Pdf = Pdf(
    filename: string,
    originalName: string,
    path: string,
    uploader: Option<UserId>,
    pages: Option<int>,
    isDefault: bool)

  /** The access rule: default PDFs are open to everyone, others only to
      the user who uploaded them. */
  predicate MayAccess(requester: UserId, pdf: Pdf) {
    pdf.isDefault || pdf.uploader == Some(requester)
  }

  /** The outcome of the checks that precede the model call. */
  datatype Access = MissingPdfId | PdfNotFound | AccessDenied | Granted(pdf: Pdf)

  /** The three checks in source order: a falsy id, then the lookup, then
      the ownership test. */
  function Decide(pdfId: Option<PdfId>, requester: UserId, pdfs: map<PdfId, Pdf>): (a: Access)
    ensures a.MissingPdfId? <==> !Present(pdfId)
    ensures a.PdfNotFound? <==> Present(pdfId) && pdfId.value !in pdfs
    ensures a.Granted? ==> Present(pdfId) && pdfId.value in pdfs && a.pdf == pdfs[pdfId.value]
    ensures a.Granted? ==> MayAccess(requester, a.pdf)
    ensures Present(pdfId) && pdfId.value in pdfs ==> (a.Granted? <==> MayAccess(requester, pdfs[pdfId.value]))
  {
    if !Present(pdfId) then MissingPdfId
    else if pdfId.value !in pdfs then PdfNotFound
    else
      var pdf := pdfs[pdfId.value];
      if !pdf.isDefault && pdf.uploader != Some(requester) then AccessDenied
      else Granted(pdf)
  }

  /** A missing id is refused whatever the store holds: the lookup is
      never reached. */
  lemma MissingIdBeforeLookup(pdfId: Option<PdfId>, requester: UserId, pdfs: map<PdfId, Pdf>, others: map<PdfId, Pdf>)
    requires !Present(pdfId)
    ensures Decide(pdfId, requester, pdfs) == Decide(pdfId, requester, others) == MissingPdfId
  {
  }

  /** A non-default PDF without an uploader is denied to every requester. */
  lemma OrphanPdfDeniedToAll(id: PdfId, requester: UserId, pdfs: map<PdfId, Pdf>)
    requires id != "" && id in pdfs && !pdfs[id].isDefault && pdfs[id].uploader.None?
    ensures Decide(Some(id), requester, pdfs) == AccessDenied
  {
  }

  /** The record routes/upload.js creates: file names and path only. The
      schema has no `isDefault` field, so it reads as false. */
  function UploadedPdf(filename: string, originalName: string, path: string): (p: Pdf)
    ensures p.uploader.None? && !p.isDefault
    ensures p.originalName == originalName
  {
    Pdf(filename, originalName, path, None, None, false)
  }

  /** The record the seed script creates for a default PDF: its names,
      page count and path. The `isDefault: true` it passes is not in the
      schema and is dropped, and no uploader is given. */
  function SeededPdf(filename: string, originalName: string, pages: int): (p: Pdf)
    ensures p.uploader.None? && !p.isDefault
    ensures p.originalName == originalName && p.pages == Some(pages)
  {
    Pdf(filename, originalName, "/uploads/default/" + filename, None, Some(pages), false)
  }

  /** So even a seeded default PDF is denied to everyone. */
  lemma SeededPdfDeniedToAll(id: PdfId, requester: UserId, pdfs: map<PdfId, Pdf>,
                             filename: string, originalName: string, pages: int)
    requires id != "" && id in pdfs && pdfs[id] == SeededPdf(filename, originalName, pages)
    ensures Decide(Some(id), requester, pdfs) == AccessDenied
  {
    OrphanPdfDeniedToAll(id, requester, pdfs);
  }

  /** Consequently an uploaded PDF is denied to everyone, its uploader
      included. */
  lemma UploadedPdfDeniedToAll(id: PdfId, requester: UserId, pdfs: map<PdfId, Pdf>,
                               filename: string, originalName: string, path: string)
    requires id != "" && id in pdfs && pdfs[id] == UploadedPdf(filename, originalName, path)
    ensures Decide(Some(id), requester, pdfs) == AccessDenied
  {
    OrphanPdfDeniedToAll(id, requester, pdfs);
  }

  datatype VideoResponse =
    | BadRequest          // 400 "pdfId is required"
    | NotFound            // 404 "PDF not found"
    | Forbidden           // 403 "Access denied"
    | ServerError         // 500 "Failed to fetch recommendations"
    | Recommended(videos: seq<Video>, basedOn: string)
  {
    function Status(): int {
      match this
      case BadRequest => 400
      case NotFound => 404
      case Forbidden => 403
      case ServerError => 500
      case Recommended(_, _) => 200
    }
  }

  /** The context the model is given: the title, then the page count,
      which reads back as the stored count, or as "undefined" when the
      record has none. */
  function VideoContext(pdf: Pdf): (ctx: string)
    ensures |ctx| > 19 + |pdf.originalName|
    ensures ctx[..11] == "PDF Title: " && ctx[11..11 + |pdf.originalName|] == pdf.originalName
    ensures ctx[11 + |pdf.originalName|..19 + |pdf.originalName|] == "\nPages: "
    ensures pdf.pages.Some? && pdf.pages.value >= 0 ==>
      AllDigits(ctx[19 + |pdf.originalName|..]) && ToNat(ctx[19 + |pdf.originalName|..]) == pdf.pages.value
    ensures pdf.pages.None? ==> ctx[19 + |pdf.originalName|..] == "undefined"
  {
    var head := "PDF Title: " + pdf.originalName + "\nPages: ";
    var count := if pdf.pages.Some? then FromInt(pdf.pages.value) else "undefined";
    assert pdf.pages.Some? && pdf.pages.value >= 0 ==> ToNat(count) == pdf.pages.value by {
      if pdf.pages.Some? && pdf.pages.value >= 0 {
        ToNatFromNat(pdf.pages.value);
      }
    }
    assert (head + count)[|head|..] == count;
    head + count
  }

  /** The handler, given the PDF store, the model's reply to each context
      (`ask`) and `JSON.parse`. */
  function RecommendVideos(pdfId: Option<PdfId>, requester: UserId, pdfs: map<PdfId, Pdf>,
                           ask: string -> ModelReply, parse: Parser): (r: VideoResponse)
    ensures r.Status() == 400 <==> !Present(pdfId)
    ensures r.Status() == 404 <==> Present(pdfId) && pdfId.value !in pdfs
    ensures r.Status() == 403 <==> Present(pdfId) && pdfId.value in pdfs && !MayAccess(requester, pdfs[pdfId.value])
    ensures r.Recommended? ==> Present(pdfId) && pdfId.value in pdfs && MayAccess(requester, pdfs[pdfId.value])
    ensures r.Recommended? ==> r.basedOn == pdfs[pdfId.value].originalName && |r.videos| <= 3
    ensures r.Status() == 500 <==>
      && Present(pdfId) && pdfId.value in pdfs && MayAccess(requester, pdfs[pdfId.value])
      && GetVideoRecommendations(ask(VideoContext(pdfs[pdfId.value])), parse).None?
    ensures r.Recommended? ==> r.videos == GetVideoRecommendations(ask(VideoContext(pdfs[pdfId.value])), parse).value
  {
    match Decide(pdfId, requester, pdfs)
    case MissingPdfId => BadRequest
    case PdfNotFound => NotFound
    case AccessDenied => Forbidden
    case Granted(pdf) =>
      match GetVideoRecommendations(ask(VideoContext(pdf)), parse)
      case None => ServerError
      case Some(videos) => Recommended(videos, pdf.originalName)
  }

  /** Whether a request is answered does not depend on who makes it when
      the PDF is a default one: every requester gets the same response. */
  lemma DefaultPdfSameForAll(id: PdfId, pdfs: map<PdfId, Pdf>, alice: UserId, bob: UserId,
                             ask: string -> ModelReply, parse: Parser)
    requires id != "" && id in pdfs && pdfs[id].isDefault
    ensures RecommendVideos(Some(id), alice, pdfs, ask, parse) == RecommendVideos(Some(id), bob, pdfs, ask, parse)
    ensures RecommendVideos(Some(id), alice, pdfs, ask, parse).Status() in {200, 500}
  {
  }

  /** For a PDF the requester may read, a reply that names no queries at
      all still yields the three fallback topics. */
  lemma GrantedFallbackRecommends(id: PdfId, requester: UserId, pdfs: map<PdfId, Pdf>, raw: string, parse: Parser)
    requires id != "" && id in pdfs && MayAccess(requester, pdfs[id])
    requires parse(StripFences(Trim(raw))).None?
    requires forall i, j :: 0 <= i < j < |StripFences(Trim(raw))| && StripFences(Trim(raw))[i] == '[' ==> StripFences(Trim(raw))[j] != ']'
    ensures var r := RecommendVideos(Some(id), requester, pdfs, _ => TextMethod(Some(raw)), parse);
            && r.Recommended? && |r.videos| == 3 && r.basedOn == pdfs[id].originalName
            && forall i :: 0 <= i < 3 ==> r.videos[i].title == FallbackQueries[i]
  {
    var reply := TextMethod(Some(raw));
    var ask: string -> ModelReply := _ => reply;
    FallbackVideos(raw, parse);
    var vs := GetVideoRecommendations(reply, parse).value;
    assert ask(VideoContext(pdfs[id])) == reply;
    assert Decide(Some(id), requester, pdfs) == Granted(pdfs[id]);
    assert RecommendVideos(Some(id), requester, pdfs, ask, parse) == Recommended(vs, pdfs[id].originalName);
  }
}

=== FILE: wrappers.dfy ===
/** Option and Result: how the model writes JavaScript's `undefined`/`null`
    and a thrown error, in place of preconditions that would forbid them. */
module Wrappers {

  /** `None` stands for an absent value (`undefined` or `null`). */
  datatype Option<+T> = None | Some(value: T) {

    /** The value, or `default` when absent. */
    function GetOr(default: T): T {
      match this
      case Some(v) => v
      case None => default
    }
  }

  /** `Failure` stands for an error the source throws to its caller. */
  datatype Result<+R, +E> = Success(value: R) | Failure(error: E)
}
